=== FILE: README.md ===
# Game telemetry ingestion, modelled in Dafny

The Unity Game Analytics service receives telemetry from game clients and stores it in a
relational database. There are three kinds of record: gameplay sessions, the events recorded
in a session, and its numeric metrics. The repository carries three implementations of the
same six endpoints. They differ in what they validate and in how they fail:

- a Flask application over raw sqlite3 (`app_flask.py`);
- the FastAPI router the application mounts, which reads untyped dictionaries and uses
  SQLAlchemy (`app/routes_simple.py`);
- a FastAPI router whose bodies are validated against pydantic models before the handler
  runs (`app/routes.py`, `app/schemas.py`).

The six endpoints are: start session, end session, create event, create events batch,
create metric, and create metrics batch.

The model has one store for all three variants (`Db.Store`):

- sessions keyed by a non-NULL `session_id`;
- the sessions whose `session_id` is NULL, in insertion order;
- the event and metric tables, each with an autoincrement counter.

Every handler is a pure function from a store, a decoded request and an environment to an
`Api.Outcome`. The environment holds the clock, uuid4, the ISO and float parsers, `json.dumps`
and Python's `str()`.

An outcome is either `Accepted(status, new store, response)` or `Rejected(status, failure)`.
A rejected request carries no store, so nothing it did is committed.

Some behaviours are modelled exactly because they decide outcomes:

- NULL never matches SQL `=` or `IN`, but SQLAlchemy's `== None` becomes `IS NULL`.
- Python refuses to subtract an offset-aware datetime from a naive one.
- `int()` truncates toward zero.
- Pydantic v1 coerces types in its own way.
- The Flask batch loop skips incomplete items.

Modules:

| module | what it holds |
|---|---|
| `Wrappers` | `Option`, the `Validated` result of schema validation, `FilterMap` / `MapAll` over sequences, and `Version`: the source as written or corrected |
| `Json` | decoded JSON values, Python truthiness, `float()` |
| `Clock` | datetimes (instant plus awareness), `int(total_seconds())`, the `'Z'` rewrite |
| `Environment` | the parameters a handler reads from outside its request |
| `Db` | sessions, rows, tables, the store and its invariant `Valid` |
| `Api` | request shapes, status codes, failures, response bodies, outcomes |
| `FlaskApp` | the six Flask handlers |
| `SimpleRoutes` | the six handlers of the mounted FastAPI router |
| `Schemas` | the pydantic request models as validators, with round trips |
| `TypedRoutes` | the six handlers of the schema-validated router |
| `Service` | the service as a state machine over a sequence of requests |
| `Comparison` | where the three variants agree and where they differ |
| `Findings` | two defects, as written and corrected: the offset-aware end time, and event details against the typed router's response model |
| `Scenario` | one session's life against the mounted router: start, end after 125 seconds, an event, a metric, and a refused batch for an unknown session |

Every handler's contract ends with `Valid(st) ==> Valid(After(st, o))`. `Valid` requires:

- every ended session's duration agrees with its two instants;
- row ids are positive, below the counter and increasing;
- every event and metric refers to a stored session.

`Service.ReachableValid` lifts this to any sequence of requests from the empty database.

## Model

| member | source | states |
|---|---|---|
| Clock.TruncSeconds | app/routes_simple.py:72-73 | `int(seconds)` truncates toward zero: the result times one second lies between 0 and the difference, less than a second short of it, for either sign |
| Clock.Elapsed | app/routes_simple.py:70-73 | the subtraction is defined exactly when both datetimes are naive or both aware, or when read on the UTC line; it then yields the truncated seconds between the instants |
| Clock.ReplaceZ | app/routes_simple.py:62 | `s.replace('Z', '+00:00')` leaves no 'Z' and grows the string by five characters per 'Z' |
| Clock.ReplaceZWithoutZ | app/routes_simple.py:62 | a string without 'Z' is unchanged by the rewrite |
| Clock.ReplaceZChar | app/routes_simple.py:62 | a single 'Z' becomes `+00:00` and any other single character stays |
| Clock.ReplaceZAppend | app/routes_simple.py:62 | the rewrite of a concatenation is the concatenation of the rewrites, so with ReplaceZChar the rewritten text is fixed character by character |
| Clock.ReplaceZIdempotent | app/routes_simple.py:62 | rewriting twice equals rewriting once |
| Environment.ParseZulu | app/routes_simple.py:60-64 | the rewritten string's parse when it parses, the current time otherwise |
| Wrappers.FilterMap | app_flask.py:241-243 | a loop that skips unusable items keeps at most as many as it got, all of them exactly when every item is usable; each kept value comes from some item, and every usable item's value is kept |
| Wrappers.FilterMapAppend | app_flask.py:241-243 | filtering a concatenation filters each part in turn: order is kept and each item is kept or skipped on its own |
| Wrappers.FilterMapSnoc | app_flask.py:241-243 | one more loop turn appends the next item's value when it is usable and nothing otherwise |
| Wrappers.FilterMapKeeps | app_flask.py:241-243 | any property every usable item's image has, every kept value has |
| Wrappers.MapAll | app/schemas.py:69-73 | all images, in order, exactly when every item is accepted; nothing otherwise |
| Json.Truthy | app/routes_simple.py:60 | Python truthiness: None, False, 0, the empty string, list and dict are false, everything else true |
| Json.StrLike | app/schemas.py:7 | the values pydantic's `str` validator takes: strings, numbers and booleans |
| Json.DictLike | app/routes_simple.py:141 | the values pydantic reads as `Dict[str, Any]`: an object, or what `dict()` accepts, the empty string and a list of pairs |
| Json.ListOfDicts | app/routes_simple.py:141 | the values `List[Dict[str, Any]]` takes: a list of dict-like values |
| Json.ToFloat | app_flask.py:280-283 | Python's `float()`: a number is itself, a boolean 1.0 or 0.0, a string what the float parser reads, and None, a list or a dict raise |
| Environment.JsonDetails | app_flask.py:179 | `json.dumps(d) if d else None`: text exactly when the details are truthy, and then their JSON text |
| Environment.ReprDetails | app/routes.py:74 | `str(d) if d else None`: text exactly when the details are truthy, and then Python's `str()` of them |
| Db.Valid | app/models.py:11-51 | the store invariant: unique session keys, durations that agree with their instants, numbered rows, and every event and metric referring to a stored session |
| Db.Table.InsertAll | app/models.py:28 | inserting drafts one after another appends their rows, numbered on from the counter, and advances the counter by their number |
| Db.Store.AddSession | app/models.py:13 | a session under an unused key (or NULL) adds exactly one row and changes nothing else |
| Db.Store.PutSession | app/routes_simple.py:68-75 | updating the row the lookup found stores the new values under that key and changes no other row |
| Db.RowsFrom | app/models.py:28 | inserted drafts become rows numbered consecutively from the counter, carrying their session reference and data |
| Db.InsertAllNumbered | app/models.py:28 | appending a batch keeps ids positive, below the counter and strictly increasing |
| Db.InsertIsInsertAll | app/models.py:28 | a single insert is a batch of one |
| Db.EmptyIsValid | app/models.py:8-18 | the empty database satisfies the store invariant |
| Db.AddSessionValid | app/models.py:13-16 | adding a fresh session under an unused key (or as NULL) keeps the invariant |
| Db.PutSessionValid | app/models.py:16-18 | overwriting a found session with a consistent row keeps the invariant and changes no other row |
| Db.AddEventsValid | app/models.py:29 | appending events whose sessions all exist keeps the invariant |
| Db.AddMetricsValid | app/models.py:47 | appending metrics whose sessions all exist keeps the invariant |
| Api.Requested | app/routes_simple.py:146 | the set of requested ids holds each item's `session_id` (None when absent) and nothing else |
| FlaskApp.StartKey | app_flask.py:87 | an absent session_id gets a fresh uuid, an explicit null is NULL, a string is kept |
| FlaskApp.HasEventFields | app_flask.py:169 | an event body passes Flask's required-key check exactly when session_id (null included), event_type and event_name are present |
| FlaskApp.HasMetricFields | app_flask.py:275 | a metric body passes exactly when session_id, metric_name and metric_value are present |
| FlaskApp.StartSession | app_flask.py:79-109 | 400 exactly when player_id is absent or the key is already stored; otherwise 201 with one new session started now, device_info defaulting to '' and an absent session_id replaced by a fresh uuid |
| FlaskApp.EndTime | app_flask.py:120-138 | the end is the parsed rewritten string when it parses, the current time otherwise, and the current time for a non-string value |
| FlaskApp.EndSession | app_flask.py:111-161 | 400 without session_id; 404 when no row has that key; 400 exactly when the subtraction mixes naive and aware; otherwise only that session changes, to the end time and the truncated duration |
| FlaskApp.Timestamp | app_flask.py:180 | an absent timestamp is the current time; a present one is stored as the client sent it |
| FlaskApp.CreateEvent | app_flask.py:164-215 | 400 exactly when a required key is absent, then 404 for an unknown session; otherwise one appended row with the next id, details set exactly when truthy |
| FlaskApp.FirstUnknown | app_flask.py:230-238 | reports an unknown id exactly when some present session_id names no stored session, and the one reported is such an id |
| FlaskApp.KeptEvents | app_flask.py:241-253 | the insert loop keeps at most all items, all of them exactly when every item has the three required keys, and the row of every complete item |
| FlaskApp.KeptEventsStep | app_flask.py:241-253 | each loop turn appends the next item's row when it has the three required keys and skips it otherwise, so complete items are inserted in order |
| FlaskApp.KeptEventsFromItems | app_flask.py:241-253 | every kept row is the row of some item that has the three required keys |
| FlaskApp.KeptEventsKnown | app_flask.py:235-243 | every row the loop keeps refers to a session the pre-check found |
| FlaskApp.CreateEventsBatch | app_flask.py:217-267 | 400 without an events list; 200 with no write for an empty one; 404 exactly when a present session_id is unknown, naming one of them; otherwise the complete items are appended in order, the table counter moves past them, and the count reported is the number received |
| FlaskApp.CreateMetric | app_flask.py:270-315 | 400 for an absent required key or a value float() refuses, both before the lookup; 404 for an unknown session; otherwise one appended row holding the sent name, the converted value, the sent level_id, and the sent timestamp verbatim or the current time when it is absent |
| FlaskApp.KeptMetrics | app_flask.py:341-353 | the loop keeps at most all items, all of them exactly when every item has the required keys and a convertible value, and the row of every such item with its converted value |
| FlaskApp.KeptMetricsStep | app_flask.py:341-353 | each loop turn appends the next item's row with its converted value when it is usable and skips it otherwise, so usable items are inserted in order |
| FlaskApp.KeptMetricsFromItems | app_flask.py:341-353 | every kept row is the row of some usable item, holding float() of its value |
| FlaskApp.KeptMetricsKnown | app_flask.py:335-343 | every metric the loop keeps refers to a session the pre-check found |
| FlaskApp.CreateMetricsBatch | app_flask.py:317-363 | as the events batch, with unconvertible values skipped as well; the counter moves past the rows inserted |
| SimpleRoutes.StartSession | app/routes_simple.py:19-45 | 400 exactly when the non-NULL key is stored; otherwise one new session holding the given fields (absent ones NULL), started now |
| SimpleRoutes.LenientTime | app/routes_simple.py:59-66 | a truthy string parses after the rewrite when it can; every other case is the current time |
| SimpleRoutes.EndSession | app/routes_simple.py:47-85 | 404 unless the ORM lookup finds a row (a missing id finds the first NULL-keyed session); 500 exactly when naive and aware are mixed; otherwise only that session changes, to the end time and the truncated duration |
| SimpleRoutes.CreateEvent | app/routes_simple.py:88-138 | 404 exactly when the ORM lookup fails; otherwise one appended row with the next id, the current time for a falsy timestamp, details set exactly when truthy |
| SimpleRoutes.MissingIds | app/routes_simple.py:146-150 | the missing ids are exactly the requested ids `IN` does not find; none are missing exactly when every item's id is stored |
| SimpleRoutes.EventsBatch | app/routes_simple.py:143-183 | 404 exactly when some item's id is not found by `IN`, listing exactly those ids; otherwise every item is appended in order, numbered from the counter, and the counter moves past them |
| SimpleRoutes.WellTyped | app/routes_simple.py:141 | the body has the declared type `Dict[str, List[Dict[str, Any]]]`: the batch key, when present, and every other key hold lists of dict-like values |
| SimpleRoutes.CreateEventsBatch | app/routes_simple.py:140-143 | 422 when `events` or any other key of the body is not a list of values pydantic reads as dicts (objects, "", lists of pairs); otherwise an absent `events` is an empty batch and a list the batch above |
| SimpleRoutes.MetricValue | app/routes_simple.py:212 | `float(data.get('metric_value', 0))`: an absent value is 0.0, a present one what `float()` makes of it |
| SimpleRoutes.CreateMetric | app/routes_simple.py:186-228 | 404 when the lookup fails; then 500 exactly when float() refuses the value; otherwise one appended row holding the sent name and level_id and the converted value, 0.0 for an absent one, with the current time when the timestamp is falsy or does not parse |
| SimpleRoutes.MetricDrafts | app/routes_simple.py:248-266 | the rows of a batch exist exactly when every value converts, one per item in order |
| SimpleRoutes.MetricsBatch | app/routes_simple.py:233-269 | 404 exactly when an id is not found, listing those ids; when every id is found, any refusal is the 500 of a value that does not convert; otherwise every item appended in order and the counter moved past them |
| SimpleRoutes.CoercedKeysAccepted | app/routes_simple.py:141 | other body keys holding [], "" or lists of pairs inside their list pass validation and leave the batch to the handler, while a list holding a number is 422 |
| SimpleRoutes.CreateMetricsBatch | app/routes_simple.py:230-233 | 422 when `metrics` or any other key of the body is not a list of values pydantic reads as dicts; otherwise an absent `metrics` is an empty batch and a list the batch above |
| Schemas.RequiredId | app/schemas.py:11 | a session_id validates exactly when it is a string, to that string |
| Schemas.RequiredStr | app/schemas.py:7 | a required str field validates exactly when present and a string, number or boolean |
| Schemas.OptionalStr | app/schemas.py:8 | absent or null reads as None; otherwise it validates like a str field |
| Schemas.RequiredFloat | app/schemas.py:55 | a required float validates exactly when present and float() accepts it, to that value |
| Schemas.OptionalFloat | app/schemas.py:36-38 | absent or null reads as None; otherwise it validates exactly when float() accepts it |
| Schemas.OptionalDict | app/schemas.py:39 | absent or null reads as None; otherwise it validates exactly when it is an object, to that object |
| Schemas.OptionalDateTime | app/schemas.py:15 | absent or null reads as None; otherwise it validates exactly when the datetime parser accepts it |
| Schemas.ParseStart | app/schemas.py:6-11 | SessionStart validates exactly when every field does, keeping the session_id and player_id |
| Schemas.ParseEnd | app/schemas.py:13-18 | SessionEnd validates exactly when session_id is a string and end_time is unset or parses |
| Schemas.ParseEvent | app/schemas.py:31-43 | EventCreate validates exactly when all nine fields do; details and timestamp are None exactly when unset |
| Schemas.ParseMetric | app/schemas.py:52-60 | MetricCreate validates exactly when all five fields do, keeping the converted value |
| Schemas.ParseEvents | app/schemas.py:69-70 | a list of events validates exactly when every item does, item by item |
| Schemas.ParseMetrics | app/schemas.py:72-73 | a list of metrics validates exactly when every item does, item by item |
| Schemas.StartRoundTrip | app/schemas.py:6-11 | every SessionStart is what the request carrying its fields validates to |
| Schemas.EndRoundTrip | app/schemas.py:13-18 | every SessionEnd survives validation when its time is sent in a form the parser reads back |
| Schemas.EventRoundTrip | app/schemas.py:31-43 | every EventCreate survives validation under the same condition |
| Schemas.MetricRoundTrip | app/schemas.py:52-60 | every MetricCreate survives validation under the same condition |
| TypedRoutes.Start | app/routes.py:10-29 | 400 exactly when the key is stored; otherwise one new session started now |
| TypedRoutes.StartSession | app/routes.py:10-29 | 422 exactly when the body fails SessionStart; accepted exactly when it validates and the session_id is new, storing the player_id sent |
| TypedRoutes.FitsSessionResponse | app/schemas.py:6-28 | a session row passes SessionResponse exactly when player_id is a valid `str` and device_info is NULL or one |
| TypedRoutes.End | app/routes.py:31-51 | 404 for an unknown session; 500 with nothing stored exactly when naive and aware are mixed; otherwise that session alone gets the given or current end time and the truncated duration, committed, and the answer is 200 with the row exactly when the row passes SessionResponse (a string player_id), 500 otherwise |
| TypedRoutes.EndSession | app/routes.py:31-51 | 422 exactly when the body fails SessionEnd; 404 exactly when it validates and names no stored session; otherwise as the handler on the validated form, so a committed end is 200 exactly when the stored session passes SessionResponse |
| TypedRoutes.Details | app/routes.py:74 | details are stored exactly when they form a non-empty object, and then as Python's `str()` of that dict |
| TypedRoutes.FitsEventResponse | app/schemas.py:39-49 | an event row passes EventResponse exactly when it has no details, since the stored `str()` text is no dict |
| TypedRoutes.AddEvent | app/routes.py:54-80 | 404 exactly when the session is unknown; otherwise one committed row with the given or current timestamp, answered 201 with the row unless, as written, it has details, which EventResponse refuses: then 500 |
| TypedRoutes.CreateEvent | app/routes.py:54-80 | a row is committed exactly when the body validates as EventCreate and its session is stored; as written the answer is then 500 exactly when the details are truthy |
| TypedRoutes.Unknown | app/routes.py:86-90 | the unknown ids are exactly the items' ids that are not stored |
| TypedRoutes.AddEvents | app/routes.py:82-113 | 404 exactly when an item's session is unknown, listing all such ids; otherwise every item appended in order and the counter moved past them |
| TypedRoutes.CreateEventsBatch | app/routes.py:82-113 | accepted exactly when `events` is a list whose every item validates and names a stored session; then one row per item and that count reported |
| TypedRoutes.AddMetric | app/routes.py:116-138 | 404 exactly when the session is unknown; otherwise one appended row holding the validated name, value and level_id, with the given or current timestamp |
| TypedRoutes.CreateMetric | app/routes.py:116-138 | accepted exactly when the body validates as MetricCreate and its session is stored, the row holding float() of the value sent |
| TypedRoutes.AddMetrics | app/routes.py:140-167 | 404 exactly when an item's session is unknown, listing all such ids; otherwise every item appended in order and the counter moved past them |
| TypedRoutes.CreateMetricsBatch | app/routes.py:140-167 | accepted exactly when `metrics` is a list whose every item validates and names a stored session; then one row per item and that count reported |
| Service.Handle | app/main.py:31-32 | whichever variant serves a request, the store invariant is preserved |
| Service.RunValid | app/models.py:29 | any sequence of requests keeps the invariant, so no event or metric ever refers to a missing session |
| Service.ReachableValid | app/models.py:47 | every store reachable from the empty database satisfies the invariant |
| Service.RejectedRunUnchanged | app/routes_simple.py:150-155 | requests that are all refused leave the database as it was |
| Comparison.EmptyBatch | app_flask.py:226-227 | an empty batch is 200 in Flask and 201 with count 0 in both routers, with no write |
| Comparison.MissingBatchKey | app_flask.py:222-223 | a body without the batch key is 400 in Flask, an empty batch in the mounted router, 422 in the typed one |
| Comparison.EventBatchCounts | app_flask.py:241-243 | when the mounted router accepts an event batch, Flask accepts it with the same count but inserts no more rows, and as many exactly when every item is complete |
| Comparison.MetricBatchCounts | app_flask.py:342-350 | the same for metrics, where Flask also skips unconvertible values |
| Comparison.DetailsEncoding | app/routes.py:74 | non-empty details are JSON text in Flask and the mounted router and Python's `str()` in the typed one; empty details are NULL in all three |
| Comparison.MetricValueDefault | app/routes_simple.py:212 | an absent metric_value is 400 in Flask, 422 in the typed router and 0.0 in the mounted one |
| Comparison.NullSessionSingleVersusBatch | app/routes_simple.py:146-147 | an event without session_id is attached to a NULL-keyed session singly, but the same item in a batch is 404 |
| Comparison.EndTimesAgree | app_flask.py:132-138 | Flask and the mounted router derive the same end time from the same end_time value |
| Comparison.FlaskEndTwice | app_flask.py:141-147 | ending twice keeps the second end and its duration from the original start |
| Comparison.SimpleEndTwice | app/routes_simple.py:68-75 | the same in the mounted router |
| Comparison.TypedEndTwice | app/routes.py:42-49 | the same in the typed router |
| Comparison.NullPlayerEndRefused | app/routes.py:31-51 | a session the mounted router started without player_id is ended and committed by the typed router, which then answers 500 because SessionResponse needs a string player_id |
| Findings.FlaskRefusesAwareEnd | app_flask.py:131-141 | as written, an end time carrying an offset makes ending any stored session fail with 400 |
| Findings.SimpleRefusesAwareEnd | app/routes_simple.py:62-72 | as written, the same end fails with 500 in the mounted router |
| Findings.TypedRefusesAwareEnd | app/routes.py:42-46 | as written, an aware validated end time fails with 500 in the typed router |
| Findings.ZuluEndRefusedFlask | app_flask.py:134-141 | ending S1 with "2024-01-01T00:02:05Z" is refused with 400 |
| Findings.ZuluEndRefusedSimple | app/routes_simple.py:62-72 | the same request is refused with 500 |
| Findings.ZuluEndRefusedTyped | app/routes.py:42-46 | the same request is refused with 500 |
| Findings.FlaskEndsAnyOffset | app_flask.py:134-141 | corrected, every stored session can be ended, with the truncated duration between the instants |
| Findings.SimpleEndsAnyOffset | app/routes_simple.py:62-73 | the same in the mounted router |
| Findings.TypedEndsAnyOffset | app/routes.py:42-47 | the same in the typed router |
| Findings.ZuluEndCorrectedFlask | app_flask.py:134-141 | corrected, the request ends S1 after 125 seconds |
| Findings.ZuluEndCorrectedSimple | app/routes_simple.py:62-73 | the same in the mounted router |
| Findings.ZuluEndCorrectedTyped | app/routes.py:42-47 | the same in the typed router |
| Findings.TypedRefusesDetailedResponse | app/routes.py:54-80 | as written, an event with non-empty details in a stored session is committed and answered with 500 |
| Findings.DetailedEventParses | app/schemas.py:31-43 | the event with details `{"level": 5}` validates as EventCreate |
| Findings.DetailedEventRefused | app/routes.py:54-80 | that event is stored as row 1 and the client is told 500 |
| Findings.TypedReturnsAnyDetails | app/routes.py:54-80 | corrected, every event in a stored session is answered with 201 and its row |
| Findings.DetailedEventCorrected | app/routes.py:54-80 | corrected, that event is answered with 201 and row 1, holding `str()` of the details |
| Scenario.StartStep | app/routes_simple.py:19-39 | starting S1 for P1 at time 0 gives exactly the one-session store |
| Scenario.EndStep | app/routes_simple.py:47-85 | ending it at 125 seconds records duration 125 and changes nothing else |
| Scenario.EventStep | app/routes_simple.py:88-138 | the levelup event is 201 with id 1 and is the only event row |
| Scenario.MetricStep | app/routes_simple.py:186-228 | the score 4200 metric is 201 with id 1 |
| Scenario.StrayBatchStep | app/routes_simple.py:146-155 | a batch of two events for the unknown S2 is 404 naming S2 and writes nothing |

## Left out

- HTTP and framework wiring, connection handling, CORS, logging and the root endpoint carry no ingestion logic.
- Concurrency is not modelled: each request is one atomic step on the store.
- JSON decoding of the body is left to the environment. So are `datetime.fromisoformat`, pydantic's datetime parser, `float()` of a string, `json.dumps`, Python's `str()` and uuid4.
- Clock.TruncSeconds: `total_seconds()` returns the microsecond count divided by a million, rounded to a float, and the model truncates the exact quotient instead. The two agree while the span is below about 2^33 seconds (some 270 years); beyond that the float can round up to the next whole second.
- Json.ToFloat: a JSON number is an exact real, and three things are dropped with that. First, Python keeps integers and floats apart. `float()` of an integer beyond the double range raises OverflowError, which the `except (ValueError, TypeError)` clauses do not catch: Flask's create_metric and the mounted router's answer 500, Flask's batch answers 400 for the whole batch, and pydantic's `float` validator fails with 500. Second, float rounding. Third, `str()` of the details shows the difference (`5` against `5.0`), which the environment's `pyStr` cannot see. Besides, `float()` accepts "nan", "inf" and "-Infinity", which no real represents, so the float parser can only refuse them or map them to some real. SQLite stores NaN as NULL, so in the typed router a metric_value of "nan" commits a row whose refreshed value is None; MetricResponse refuses that, and the client gets 500 after the commit.
- Stored times: SQLAlchemy's SQLite DateTime column writes the wall-clock fields and drops the UTC offset. So in both FastAPI routers an aware time such as 12:00+02:00 is stored, and returned after `db.refresh`, as naive 12:00. The model's `Clock.DateTime` holds the UTC instant with an aware flag, and stores 10:00, aware.
- The environment gives one current time per request. The source calls `utcnow()` afresh wherever it needs one, once per item in every batch loop, so rows of one batch can carry different default timestamps.
- The model assumes that Flask's default end time, `utcnow().isoformat()`, parses back to the current time.
- Flask stores a client-supplied timestamp verbatim. The model keeps the value and does not check that SQLite accepts it.
- Schemas.RequiredId: session ids that are not strings are not modelled. Only strings, explicit null and an absent key are.
- A batch item that is not a JSON object is not modelled. Both FastAPI routers first try `dict(item)`. The empty string and an empty list become `{}`: the mounted router then looks up the None id and answers 404, and the typed router refuses the missing fields with 422. A list of pairs becomes the dict of those pairs and is handled as that object. Any other item is refused with 422. In Flask, a string or list item makes `'session_id' in item` a substring or membership test that is false, so the item is skipped by both loops and still counted in the reported total; a number, boolean or null item makes that test raise TypeError outside the `try`, which gives 500.
- Schemas.OptionalDict: pydantic's `dict(v)` fallback is not modelled, so only JSON objects validate as `details`. The source also accepts any iterable of pairs, including "" and [], which become `{}`; the typed router then stores NULL details and answers 201 where the model answers 422.
- SQLite errors at commit, other than the UNIQUE conflict on `session_id`, are not modelled. Examples are a bound value of an unsupported type, or the foreign key, which SQLite does not enforce by default.
- FlaskApp.CreateEventsBatch: the source iterates a Python set of ids in unspecified order. So the 404 names some unknown id, not a particular one.
- FlaskApp.CreateMetricsBatch: the same unspecified order applies.
- The `if db_session.start_time:` guard in both FastAPI routers always holds, because every stored session has a start time. The model does not branch on it.
- `app/database.py` and the database configuration scripts are not part of this model.

## Findings

| source | as written | input that shows it | evidently intended | confidence | as-written member | corrected member |
|---|---|---|---|---|---|---|
| app/routes_simple.py:62-72 | the end time parsed from "...Z" carries a UTC offset, while the start time from `utcnow()` is naive, so `end_time - start_time` raises TypeError and the request fails with 500 | end S1, started at 00:00:00, with end_time "2024-01-01T00:02:05Z" | the session ends with duration 125, both instants read as UTC | high, not executed | Findings.ZuluEndRefusedSimple | Findings.ZuluEndCorrectedSimple |
| app_flask.py:131-141 | the same subtraction of a naive start from the offset-aware end raises, and the handler answers 400 | the same request | the session ends with duration 125 | high, not executed | Findings.ZuluEndRefusedFlask | Findings.ZuluEndCorrectedFlask |
| app/routes.py:42-46 | pydantic parses the end time as an aware datetime; subtracting the naive start raises and the request fails with 500 | the same request | the session ends with duration 125 | high, not executed | Findings.ZuluEndRefusedTyped | Findings.ZuluEndCorrectedTyped |
| app/routes.py:54-80 | the route stores `str(event.details)`, commits, and returns the row, which FastAPI validates against EventResponse; its `details` is a dict, the stored text is not, so the response fails with 500 after the commit | create an event in S1 with details `{"level": 5}` | 201 with the stored event | medium, not executed | Findings.DetailedEventRefused | Findings.DetailedEventCorrected |

Every end-session handler, and the typed router's create_event, takes a `Wrappers.Version`. `AsWritten` is the source's behaviour and `Corrected` has both defects fixed; `Service` and `Comparison` hold for both.

=== FILE: api.dfy ===
/** The request bodies the six ingestion endpoints receive and the outcomes
    they return, shared by the three implementations. */
module Api {
  import opened Wrappers
  import opened Json
  import opened Db

  /** The `session_id` key of a request object. Only string ids are modelled. */
  datatype IdField = NoId | NullId | Id(key: string) {

    /** `data.get('session_id')`. */
    function Get(): Option<string> {
      match this
      case Id(k) => Some(k)
      case _ => None
    }
  }

  /** POST /api/sessions/start */
  datatype StartRequest = StartRequest(sessionId: IdField, playerId: Field, deviceInfo: Field)

  /** POST /api/sessions/end */
  datatype EndRequest = EndRequest(sessionId: IdField, endTime: Field)

  /** POST /api/events, and one item of POST /api/events/batch */
  datatype EventRequest = EventRequest(
    sessionId: IdField,
    eventType: Field,
    eventName: Field,
    levelId: Field,
    positionX: Field,
    positionY: Field,
    positionZ: Field,
    details: Field,
    timestamp: Field)

  /** POST /api/metrics, and one item of POST /api/metrics/batch */
  datatype MetricRequest = MetricRequest(
    sessionId: IdField,
    metricName: Field,
    metricValue: Field,
    levelId: Field,
    timestamp: Field)

  /** The `events` / `metrics` key of a batch body. */
  datatype Batch<T> = Missing | NotList | Items(items: seq<T>)

  /** The `session_id` of every item of a batch, in order. */
  function EventIds(items: seq<EventRequest>): seq<IdField> {
    MapSeq(items, (r: EventRequest) => r.sessionId)
  }

  function MetricIds(items: seq<MetricRequest>): seq<IdField> {
    MapSeq(items, (r: MetricRequest) => r.sessionId)
  }

  /** `{item.get('session_id') for item in items}`: an item without the key
      contributes None. */
  function Requested(ids: seq<IdField>): (r: set<Option<string>>)
    ensures forall i :: 0 <= i < |ids| ==> ids[i].Get() in r
    ensures forall x :: x in r ==> exists i :: 0 <= i < |ids| && ids[i].Get() == x
  {
    set i | 0 <= i < |ids| :: ids[i].Get()
  }

  const OK: int := 200
  const CREATED: int := 201
  const BAD_REQUEST: int := 400
  const NOT_FOUND: int := 404
  const UNPROCESSABLE: int := 422
  const SERVER_ERROR: int := 500

  datatype Failure =
    | MissingField                                // a required key is absent
    | MissingArray                                // the batch key is absent or not a list
    | NotANumber                                  // float(metric_value) raised
    | Conflict                                    // the UNIQUE session_id column refused the row
    | OffsetMismatch                              // naive start_time minus an offset-aware end_time
    | SessionNotFound                             // the referenced session is not stored
    | SessionsNotFound(ids: set<Option<string>>)  // a batch names sessions that are not stored
    | Invalid                                     // the request failed schema validation

  datatype Body =
    | SessionBody(sessionId: Option<string>, session: Session)
    | EventBody(event: Row<EventData>)
    | MetricBody(metric: Row<MetricData>)
    | CreatedCount(count: nat)                     // "Successfully created N ..."
    | NothingToProcess                             // "No events to process"
    | ResponseRefused                              // the committed row failed the declared response model (500)

  /** A handler's result: the store with the request's writes committed, and
      the status and response sent; or an error status. A rejected request
      carries no store: nothing it did is committed. A response can still be
      an error after the commit (`ResponseRefused`). */
  datatype Outcome = Accepted(code: int, store: Store, body: Body) | Rejected(code: int, failure: Failure)

  /** The store after a request. */
  function After(st: Store, o: Outcome): Store {
    if o.Accepted? then o.store else st
  }
}

=== FILE: clock.dfy ===
/** Instants, Python's datetime subtraction and the `'Z'` rewrite applied before parsing. */
module Clock {
  import opened Wrappers

  const MicrosPerSecond: int := 1_000_000

  /** A Python datetime: `micros` is the instant on the UTC time line in
      microseconds; `aware` says whether it carries a UTC offset.
      `datetime.utcnow()` gives naive values that are read as UTC. */
  datatype DateTime = DateTime(micros: int, aware: bool)

  function Naive(micros: int): DateTime {
    DateTime(micros, false)
  }

  /** `int(delta.total_seconds())` for a delta of `d` microseconds: Python's
      int() truncates toward zero, whereas Dafny's `/` rounds toward minus
      infinity, so the negative case is written out. */
  function TruncSeconds(d: int): (r: int)
    ensures 0 <= d ==> 0 <= r * MicrosPerSecond <= d < (r + 1) * MicrosPerSecond
    ensures d < 0 ==> d <= r * MicrosPerSecond <= 0 && (r - 1) * MicrosPerSecond < d
  {
    if 0 <= d then d / MicrosPerSecond else -((-d) / MicrosPerSecond)
  }

  /** `int((end - start).total_seconds())`; None where Python raises TypeError.
      As written, Python refuses to subtract an offset-aware datetime from a
      naive one; corrected, both are read on the UTC time line. */
  function Elapsed(how: Version, start: DateTime, end: DateTime): (r: Option<int>)
    ensures r.Some? <==> how.Corrected? || start.aware == end.aware
    ensures r.Some? ==> r.value == TruncSeconds(end.micros - start.micros)
  {
    if how.AsWritten? && start.aware != end.aware then None
    else Some(TruncSeconds(end.micros - start.micros))
  }

  const UtcOffset: string := "+00:00"

  function CountZ(s: string): nat {
    if s == [] then 0 else (if s[0] == 'Z' then 1 else 0) + CountZ(s[1..])
  }

  /** `s.replace('Z', '+00:00')`. */
  function ReplaceZ(s: string): (r: string)
    ensures forall i :: 0 <= i < |r| ==> r[i] != 'Z'
    ensures |r| == |s| + 5 * CountZ(s)
  {
    if s == [] then []
    else (if s[0] == 'Z' then UtcOffset else [s[0]]) + ReplaceZ(s[1..])
  }

  /** A string without 'Z' is left as it is. */
  lemma {:induction false} ReplaceZWithoutZ(s: string)
    requires forall i :: 0 <= i < |s| ==> s[i] != 'Z'
    ensures ReplaceZ(s) == s
  {
    if s != [] {
      assert s[0] != 'Z';
      ReplaceZWithoutZ(s[1..]);
      assert s == [s[0]] + s[1..];
    }
  }

  /** The rewrite works character by character: a 'Z' becomes the UTC
      offset and every other character stays. */
  lemma ReplaceZChar(c: char)
    ensures ReplaceZ([c]) == if c == 'Z' then UtcOffset else [c]
  {
    assert [c][1..] == [];
  }

  /** The rewrite of a concatenation is the concatenation of the rewrites;
      with ReplaceZChar this fixes the rewritten text completely. */
  lemma {:induction false} ReplaceZAppend(a: string, b: string)
    ensures ReplaceZ(a + b) == ReplaceZ(a) + ReplaceZ(b)
    decreases |a|
  {
    if a == [] {
      assert a + b == b;
    } else {
      assert (a + b)[0] == a[0];
      assert (a + b)[1..] == a[1..] + b;
      ReplaceZAppend(a[1..], b);
    }
  }

  /** Rewriting twice is the same as rewriting once. */
  lemma ReplaceZIdempotent(s: string)
    ensures ReplaceZ(ReplaceZ(s)) == ReplaceZ(s)
  {
    ReplaceZWithoutZ(ReplaceZ(s));
  }
}

=== FILE: comparison.dfy ===
/** Where the three implementations agree and where they part ways, stated
    over the same store and the same request. */
module Comparison {
  import opened Wrappers
  import opened Json
  import opened Clock
  import opened Environment
  import opened Db
  import opened Api
  import opened Schemas
  import FlaskApp
  import SimpleRoutes
  import TypedRoutes

  /** An empty batch: 200 "nothing to process" in Flask, 201 reporting zero
      in both FastAPI routers; no variant writes. */
  lemma EmptyBatch(st: Store, env: Env)
    ensures FlaskApp.CreateEventsBatch(st, Items([]), env) == Accepted(OK, st, NothingToProcess)
    ensures SimpleRoutes.CreateEventsBatch(st, Items([]), [], env) == Accepted(CREATED, st, CreatedCount(0))
    ensures TypedRoutes.CreateEventsBatch(st, Items([]), env) == Accepted(CREATED, st, CreatedCount(0))
    ensures FlaskApp.CreateMetricsBatch(st, Items([]), env) == Accepted(OK, st, NothingToProcess)
    ensures SimpleRoutes.CreateMetricsBatch(st, Items([]), [], env) == Accepted(CREATED, st, CreatedCount(0))
    ensures TypedRoutes.CreateMetricsBatch(st, Items([]), env) == Accepted(CREATED, st, CreatedCount(0))
  {
    assert st.AddEvents([]) == st;
    assert st.AddMetrics([]) == st;
    assert ParseEvents([], env) == Pass([]);
    assert ParseMetrics([], env) == Pass([]);
  }

  /** A body without the batch key: 400 in Flask, an empty batch in the
      mounted router, 422 in the typed one. */
  lemma MissingBatchKey(st: Store, env: Env)
    ensures FlaskApp.CreateEventsBatch(st, Missing, env) == Rejected(BAD_REQUEST, MissingArray)
    ensures SimpleRoutes.CreateEventsBatch(st, Missing, [], env) == Accepted(CREATED, st, CreatedCount(0))
    ensures TypedRoutes.CreateEventsBatch(st, Missing, env) == Rejected(UNPROCESSABLE, Invalid)
  {
    assert st.AddEvents([]) == st;
  }

  /** Whenever the mounted router accepts a non-empty event batch, Flask
      accepts it too and reports the same count, but inserts only the
      complete items: never more rows than the mounted router, and as many
      exactly when no item lacks a required key. */
  lemma EventBatchCounts(st: Store, items: seq<EventRequest>, env: Env)
    requires items != []
    requires SimpleRoutes.EventsBatch(st, items, env).Accepted?
    ensures FlaskApp.CreateEventsBatch(st, Items(items), env).Accepted?
    ensures
      var f := FlaskApp.CreateEventsBatch(st, Items(items), env);
      var s := SimpleRoutes.EventsBatch(st, items, env);
      && f.body == s.body == CreatedCount(|items|)
      && |s.store.events.rows| == |st.events.rows| + |items|
      && |f.store.events.rows| <= |s.store.events.rows|
      && (|f.store.events.rows| == |s.store.events.rows| <==> forall i :: 0 <= i < |items| ==> FlaskApp.HasEventFields(items[i]))
  {
    assert forall i :: 0 <= i < |items| ==> st.FoundByEquals(items[i].sessionId.Get());
  }

  /** The same for metrics: Flask also skips an item whose metric_value is
      absent or not a number, where the mounted router reads an absent value
      as 0.0 and would have refused the whole batch over a bad one. */
  lemma MetricBatchCounts(st: Store, items: seq<MetricRequest>, env: Env)
    requires items != []
    requires SimpleRoutes.MetricsBatch(st, items, env).Accepted?
    ensures FlaskApp.CreateMetricsBatch(st, Items(items), env).Accepted?
    ensures
      var f := FlaskApp.CreateMetricsBatch(st, Items(items), env);
      var s := SimpleRoutes.MetricsBatch(st, items, env);
      && f.body == s.body == CreatedCount(|items|)
      && |s.store.metrics.rows| == |st.metrics.rows| + |items|
      && |f.store.metrics.rows| <= |s.store.metrics.rows|
      && (|f.store.metrics.rows| == |s.store.metrics.rows| <==> forall i :: 0 <= i < |items| ==> FlaskApp.Usable(items[i], env))
  {
    assert forall i :: 0 <= i < |items| ==> st.FoundByEquals(items[i].sessionId.Get());
  }

  /** A non-empty `details` object is stored as JSON text by Flask and the
      mounted router and as Python's str() of the dict by the typed router;
      an empty one is stored as NULL by all three. */
  lemma DetailsEncoding(r: EventRequest, m: map<string, Value>, env: Env)
    requires r.details == Some(Obj(m))
    requires ParseEvent(r, env).Pass?
    ensures m != map[] ==>
      && FlaskApp.EventDraft(r, env).data.details == Some(env.jsonDumps(Obj(m)))
      && SimpleRoutes.EventDraft(r, env).data.details == Some(env.jsonDumps(Obj(m)))
      && TypedRoutes.EventDraft(ParseEvent(r, env).value, env).data.details == Some(env.pyStr(Obj(m)))
    ensures m == map[] ==>
      && FlaskApp.EventDraft(r, env).data.details.None?
      && SimpleRoutes.EventDraft(r, env).data.details.None?
      && TypedRoutes.EventDraft(ParseEvent(r, env).value, env).data.details.None?
  {
    assert ParseEvent(r, env).value.details == Some(m);
  }

  /** A metric without metric_value: 400 in Flask, 422 in the typed router,
      and a stored 0.0 in the mounted router. */
  lemma MetricValueDefault(st: Store, req: MetricRequest, env: Env)
    requires req.metricValue.None?
    ensures FlaskApp.CreateMetric(st, req, env) == Rejected(BAD_REQUEST, MissingField)
    ensures TypedRoutes.CreateMetric(st, req, env) == Rejected(UNPROCESSABLE, Invalid)
    ensures st.FoundByOrm(req.sessionId.Get()) ==>
      var o := SimpleRoutes.CreateMetric(st, req, env);
      o.Accepted? && o.body.MetricBody? && o.body.metric.data.metricValue == 0.0
  {
  }

  /** In the mounted router an event without a session_id is attached to the
      first NULL-keyed session (`== None` is `IS NULL`), while the same item
      in a batch is refused, because `IN (...)` never matches NULL. */
  lemma NullSessionSingleVersusBatch(st: Store, req: EventRequest, env: Env)
    requires !req.sessionId.Id?
    requires st.anonymous != []
    ensures SimpleRoutes.CreateEvent(st, req, env).Accepted?
    ensures SimpleRoutes.EventsBatch(st, [req], env) == Rejected(NOT_FOUND, SessionsNotFound({None}))
  {
    var ids := EventIds([req]);
    var missing := SimpleRoutes.MissingIds(st, ids);
    assert ids[0].Get() == None;
    assert forall x :: x in Requested(ids) ==> x == None;
    assert None in missing;
    assert missing == {None};
  }

  /** Flask and the mounted router read end_time the same way, given that
      the empty string does not parse (Flask parses it and falls back to now;
      the mounted router treats it as falsy and uses now). */
  lemma EndTimesAgree(f: Field, env: Env)
    requires env.fromIso("") == None
    ensures FlaskApp.EndTime(f, env) == SimpleRoutes.LenientTime(Get(f), env)
  {
    if f.Some? && f.value == Str("") {
      assert ReplaceZ("") == "";
    }
  }

  // --------------------------------------------------- a session ended twice

  /** Ending a session twice in Flask leaves the second end time and the
      duration measured from the original start: the first end is
      overwritten. */
  lemma FlaskEndTwice(st: Store, r1: EndRequest, e1: Env, r2: EndRequest, e2: Env, how: Version)
    requires r1.sessionId == r2.sessionId
    requires FlaskApp.EndSession(st, r1, e1, how).Accepted?
    requires FlaskApp.EndSession(FlaskApp.EndSession(st, r1, e1, how).store, r2, e2, how).Accepted?
    ensures
      var k := r1.sessionId.key;
      var end := FlaskApp.EndTime(r2.endTime, e2);
      var last := FlaskApp.EndSession(FlaskApp.EndSession(st, r1, e1, how).store, r2, e2, how).store;
      && k in st.sessions && k in last.sessions
      && last.sessions[k] == Ended(st.sessions[k], end, TruncSeconds(end.micros - st.sessions[k].startTime.micros))
  {
  }

  lemma SimpleEndTwice(st: Store, r1: EndRequest, e1: Env, r2: EndRequest, e2: Env, how: Version)
    requires r1.sessionId.Get() == r2.sessionId.Get()
    requires SimpleRoutes.EndSession(st, r1, e1, how).Accepted?
    requires SimpleRoutes.EndSession(SimpleRoutes.EndSession(st, r1, e1, how).store, r2, e2, how).Accepted?
    ensures
      var k := r1.sessionId.Get();
      var end := SimpleRoutes.LenientTime(Get(r2.endTime), e2);
      var last := SimpleRoutes.EndSession(SimpleRoutes.EndSession(st, r1, e1, how).store, r2, e2, how).store;
      && st.FoundByOrm(k) && last.FoundByOrm(k)
      && last.Fetch(k) == Ended(st.Fetch(k), end, TruncSeconds(end.micros - st.Fetch(k).startTime.micros))
  {
  }

  lemma TypedEndTwice(st: Store, f1: EndForm, e1: Env, f2: EndForm, e2: Env, how: Version)
    requires f1.sessionId == f2.sessionId
    requires TypedRoutes.End(st, f1, e1, how).Accepted?
    requires TypedRoutes.End(TypedRoutes.End(st, f1, e1, how).store, f2, e2, how).Accepted?
    ensures
      var k := f1.sessionId;
      var end := f2.endTime.GetOr(e2.Now());
      var last := TypedRoutes.End(TypedRoutes.End(st, f1, e1, how).store, f2, e2, how).store;
      && k in st.sessions && k in last.sessions
      && last.sessions[k] == Ended(st.sessions[k], end, TruncSeconds(end.micros - st.sessions[k].startTime.micros))
  {
  }

  /** A session the mounted router started without a player_id is stored
      with a NULL player_id. The typed router ends it and commits the end,
      but its response model refuses the row, so the client gets 500. */
  lemma NullPlayerEndRefused(key: string, env: Env)
    ensures
      var started := SimpleRoutes.StartSession(Empty, StartRequest(Id(key), None, None), env);
      var o := TypedRoutes.EndSession(started.store, EndRequest(Id(key), None), env, AsWritten);
      && started.Accepted?
      && o.Accepted? && o.code == SERVER_ERROR && o.body == ResponseRefused
      && key in o.store.sessions && o.store.sessions[key].duration == Some(0)
  {
    var started := SimpleRoutes.StartSession(Empty, StartRequest(Id(key), None, None), env);
    assert ParseEnd(EndRequest(Id(key), None), env) == Pass(EndForm(key, None));
    assert started.store.sessions[key].playerId == Null;
  }
}

=== FILE: db.dfy ===
/** The persisted state: the game_sessions, game_events and game_metrics
    tables, held as one immutable value, and the invariant every handler keeps. */
module Db {
  import opened Wrappers
  import opened Json
  import opened Clock

  /** A game_sessions row without its key. `end_time` and `duration_seconds`
      are nullable and stay absent until the session is ended. */
  datatype Session = Session(
    playerId: Value,
    deviceInfo: Value,
    startTime: DateTime,
    endTime: Option<DateTime>,
    duration: Option<int>)

  /** A session as a start handler creates it: started now, not yet ended. */
  function Started(playerId: Value, deviceInfo: Value, now: DateTime): Session {
    Session(playerId, deviceInfo, now, None, None)
  }

  /** The session after an end: only `end_time` and `duration_seconds` are set. */
  function Ended(s: Session, end: DateTime, duration: int): Session {
    s.(endTime := Some(end), duration := Some(duration))
  }

  /** The derived column agrees with the two instants: whenever `end_time` is
      set, `duration_seconds` is the truncated number of seconds from
      `start_time` to `end_time` (negative when the end precedes the start). */
  predicate Consistent(s: Session) {
    && !s.startTime.aware
    && s.endTime.Some? == s.duration.Some?
    && (s.endTime.Some? ==> s.duration.value == TruncSeconds(s.endTime.value.micros - s.startTime.micros))
  }

  /** An event or metric timestamp: a datetime, or (raw-SQL variant) the
      client's value stored verbatim in the TIMESTAMP column. */
  datatype Stamp = At(instant: DateTime) | Verbatim(raw: Value)

  /** A game_events row without its id and session reference. */
  datatype EventData = EventData(
    eventType: Value,
    eventName: Value,
    timestamp: Stamp,
    levelId: Value,
    positionX: Value,
    positionY: Value,
    positionZ: Value,
    details: Option<string>)

  /** A game_metrics row without its id and session reference. */
  datatype MetricData = MetricData(
    metricName: Value,
    metricValue: real,
    timestamp: Stamp,
    levelId: Value)

  /** A row to insert: the session reference (None for NULL) and the payload. */
  datatype Draft<D> = Draft(sessionId: Option<string>, data: D)

  /** An inserted row with its server-assigned id. */
  datatype Row<D> = Row(id: nat, sessionId: Option<string>, data: D)

  /** An append-only table with an autoincrement counter. */
  datatype Table<D> = Table(rows: seq<Row<D>>, nextId: nat) {

    /** Ids are positive, below the counter, and increase in insertion order. */
    predicate Numbered() {
      && (forall i :: 0 <= i < |rows| ==> 1 <= rows[i].id < nextId)
      && (forall i, j :: 0 <= i < j < |rows| ==> rows[i].id < rows[j].id)
    }

    function Insert(d: Draft<D>): Table<D> {
      Table(rows + [Row(nextId, d.sessionId, d.data)], nextId + 1)
    }

    /** The drafts inserted one after another, in order: the rows they become
        are appended, numbered on from the counter. */
    function InsertAll(ds: seq<Draft<D>>): (t: Table<D>)
      ensures t == Table(rows + RowsFrom(nextId, ds), nextId + |ds|)
      decreases |ds|
    {
      if ds == [] then
        assert rows + [] == rows;
        this
      else
        var head := Row(nextId, ds[0].sessionId, ds[0].data);
        var rest := RowsFrom(nextId + 1, ds[1..]);
        assert RowsFrom(nextId, ds) == [head] + rest;
        assert (rows + [head]) + rest == rows + ([head] + rest);
        Insert(ds[0]).InsertAll(ds[1..])
    }
  }

  /** The rows `ds` become when numbered consecutively from `first`. */
  function RowsFrom<D>(first: nat, ds: seq<Draft<D>>): (rs: seq<Row<D>>)
    ensures |rs| == |ds|
    ensures forall i :: 0 <= i < |ds| ==> rs[i] == Row(first + i, ds[i].sessionId, ds[i].data)
    decreases |ds|
  {
    if ds == [] then []
    else
      var rest := RowsFrom(first + 1, ds[1..]);
      assert forall i :: 1 <= i < |ds| ==> ds[1..][i - 1] == ds[i];
      [Row(first, ds[0].sessionId, ds[0].data)] + rest
  }

  /** Appending numbered rows keeps the table numbered. */
  lemma InsertAllNumbered<D>(t: Table<D>, ds: seq<Draft<D>>)
    requires t.Numbered() && 1 <= t.nextId
    ensures t.InsertAll(ds).Numbered()
  {
    var rs := RowsFrom(t.nextId, ds);
    assert forall i :: 0 <= i < |rs| ==> rs[i].id == t.nextId + i;
  }

  /** A single insert is a batch of one. */
  lemma InsertIsInsertAll<D>(t: Table<D>, d: Draft<D>)
    ensures t.Insert(d) == t.InsertAll([d])
  {
    assert [d][1..] == [];
  }

  /** `row` was appended to `before`, giving `after`, with the next id. */
  ghost predicate AppendedOne<D>(before: Table<D>, after: Table<D>, row: Row<D>) {
    && after.rows == before.rows + [row]
    && row.id == before.nextId
    && after.nextId == before.nextId + 1
  }

  /** `after` is `before` with the drafts inserted in order: their rows are
      appended, numbered on from the counter, and the counter has moved past
      them, so the next insert gets the id after the last of them. */
  ghost predicate AppendedAll<D>(before: Table<D>, after: Table<D>, ds: seq<Draft<D>>) {
    && after.rows == before.rows + RowsFrom(before.nextId, ds)
    && after.nextId == before.nextId + |ds|
  }

  datatype Store = Store(
    sessions: map<string, Session>,  // rows with a non-NULL session_id, by key
    anonymous: seq<Session>,         // rows whose session_id is NULL, in insertion order
    events: Table<EventData>,
    metrics: Table<MetricData>)
  {
    /** Whether raw SQL `session_id = ?` (or `IN (...)`) finds a row: NULL
        never compares equal. */
    predicate FoundByEquals(key: Option<string>) {
      key.Some? && key.value in sessions
    }

    /** Whether SQLAlchemy's `GameSession.session_id == key` finds a row:
        a Python None is compiled to `IS NULL`. */
    predicate FoundByOrm(key: Option<string>) {
      match key
      case Some(k) => k in sessions
      case None => anonymous != []
    }

    /** The row `.first()` returns for a key the ORM finds. */
    function Fetch(key: Option<string>): Session
      requires FoundByOrm(key)
    {
      match key
      case Some(k) => sessions[k]
      case None => anonymous[0]
    }

    function SessionCount(): nat {
      |sessions| + |anonymous|
    }

    /** INSERT INTO game_sessions; a repeated non-NULL key is excluded by the
        UNIQUE column, which the caller has checked. */
    function AddSession(key: Option<string>, s: Session): (st: Store)
      requires !FoundByEquals(key)
      ensures st.SessionCount() == SessionCount() + 1
      ensures st.FoundByOrm(key)
      ensures key.Some? ==> st.sessions == sessions[key.value := s] && st.anonymous == anonymous
      ensures key.None? ==> st.sessions == sessions && st.anonymous == anonymous + [s]
      ensures AddedSession(this, st, key, s)
    {
      match key
      case Some(k) =>
        assert sessions[k := s].Keys == sessions.Keys + {k};
        this.(sessions := sessions[k := s])
      case None => this.(anonymous := anonymous + [s])
    }

    /** INSERT INTO game_events, one row per draft, in order. */
    function AddEvents(ds: seq<Draft<EventData>>): (st: Store)
      ensures OnlyEventsChanged(this, st)
      ensures st.events.rows == events.rows + RowsFrom(events.nextId, ds)
      ensures st.events.nextId == events.nextId + |ds|
    {
      this.(events := events.InsertAll(ds))
    }

    /** INSERT INTO game_metrics, one row per draft, in order. */
    function AddMetrics(ds: seq<Draft<MetricData>>): (st: Store)
      ensures OnlyMetricsChanged(this, st)
      ensures st.metrics.rows == metrics.rows + RowsFrom(metrics.nextId, ds)
      ensures st.metrics.nextId == metrics.nextId + |ds|
    {
      this.(metrics := metrics.InsertAll(ds))
    }

    /** UPDATE of the row the ORM (or SQL) found for `key`. */
    function PutSession(key: Option<string>, s: Session): (st: Store)
      requires FoundByOrm(key)
      ensures st.FoundByOrm(key) && st.Fetch(key) == s
      ensures OnlySessionChanged(this, st, key)
    {
      match key
      case Some(k) => this.(sessions := sessions[k := s])
      case None => this.(anonymous := anonymous[0 := s])
    }
  }

  const Empty: Store := Store(map[], [], Table([], 1), Table([], 1))

  /** The store invariant: unique keys (by construction of the map), derived
      durations that agree with their instants, numbered rows, and every event
      and metric referring to a stored session. A NULL reference counts as
      referring when a NULL-keyed session exists, which is the only way the
      ORM variant lets one in. */
  predicate Valid(st: Store) {
    && (forall k :: k in st.sessions ==> Consistent(st.sessions[k]))
    && (forall i :: 0 <= i < |st.anonymous| ==> Consistent(st.anonymous[i]))
    && 1 <= st.events.nextId && st.events.Numbered()
    && 1 <= st.metrics.nextId && st.metrics.Numbered()
    && (forall i :: 0 <= i < |st.events.rows| ==> st.FoundByOrm(st.events.rows[i].sessionId))
    && (forall i :: 0 <= i < |st.metrics.rows| ==> st.FoundByOrm(st.metrics.rows[i].sessionId))
  }

  /** Nothing but the session row under `key` differs between `a` and `b`. */
  predicate OnlySessionChanged(a: Store, b: Store, key: Option<string>) {
    && a.events == b.events && a.metrics == b.metrics
    && a.sessions.Keys == b.sessions.Keys && |a.anonymous| == |b.anonymous|
    && (forall k :: k in a.sessions && key != Some(k) ==> b.sessions[k] == a.sessions[k])
    && (forall i :: 0 <= i < |a.anonymous| && (key.Some? || i != 0) ==> b.anonymous[i] == a.anonymous[i])
  }

  /** b is a with the session s added under key, and nothing else changed. */
  predicate AddedSession(a: Store, b: Store, key: Option<string>, s: Session) {
    && b.events == a.events && b.metrics == a.metrics
    && b.SessionCount() == a.SessionCount() + 1
    && match key
       case Some(k) => k !in a.sessions && b.sessions == a.sessions[k := s] && b.anonymous == a.anonymous
       case None => b.sessions == a.sessions && b.anonymous == a.anonymous + [s]
  }

  /** Only the events table differs between a and b. */
  predicate OnlyEventsChanged(a: Store, b: Store) {
    a.sessions == b.sessions && a.anonymous == b.anonymous && a.metrics == b.metrics
  }

  /** Only the metrics table differs between a and b. */
  predicate OnlyMetricsChanged(a: Store, b: Store) {
    a.sessions == b.sessions && a.anonymous == b.anonymous && a.events == b.events
  }

  lemma EmptyIsValid()
    ensures Valid(Empty)
  {
  }

  /** Adding a freshly started session keeps the invariant. */
  lemma AddSessionValid(st: Store, key: Option<string>, s: Session)
    requires !st.FoundByEquals(key)
    ensures Valid(st) && Consistent(s) ==> Valid(st.AddSession(key, s))
  {
    var st' := st.AddSession(key, s);
    if Valid(st) && Consistent(s) {
      forall i | 0 <= i < |st'.anonymous|
        ensures Consistent(st'.anonymous[i])
      {
        if i < |st.anonymous| {
          assert st'.anonymous[i] == st.anonymous[i];
        }
      }
      forall i | 0 <= i < |st'.events.rows|
        ensures st'.FoundByOrm(st'.events.rows[i].sessionId)
      {
        assert st.FoundByOrm(st.events.rows[i].sessionId);
      }
      forall i | 0 <= i < |st'.metrics.rows|
        ensures st'.FoundByOrm(st'.metrics.rows[i].sessionId)
      {
        assert st.FoundByOrm(st.metrics.rows[i].sessionId);
      }
    }
  }

  /** Overwriting a found session with a consistent row keeps the invariant
      and changes nothing else. */
  lemma PutSessionValid(st: Store, key: Option<string>, s: Session)
    requires st.FoundByOrm(key)
    ensures OnlySessionChanged(st, st.PutSession(key, s), key)
    ensures st.PutSession(key, s).Fetch(key) == s
    ensures Valid(st) && Consistent(s) ==> Valid(st.PutSession(key, s))
  {
    var st' := st.PutSession(key, s);
    assert st'.sessions.Keys == st.sessions.Keys;
    if Valid(st) && Consistent(s) {
      forall i | 0 <= i < |st'.events.rows|
        ensures st'.FoundByOrm(st'.events.rows[i].sessionId)
      {
        assert st.FoundByOrm(st.events.rows[i].sessionId);
      }
      forall i | 0 <= i < |st'.metrics.rows|
        ensures st'.FoundByOrm(st'.metrics.rows[i].sessionId)
      {
        assert st.FoundByOrm(st.metrics.rows[i].sessionId);
      }
    }
  }

  /** Appending events that all refer to stored sessions keeps the invariant. */
  lemma AddEventsValid(st: Store, ds: seq<Draft<EventData>>)
    requires forall i :: 0 <= i < |ds| ==> st.FoundByOrm(ds[i].sessionId)
    ensures Valid(st) ==> Valid(st.AddEvents(ds))
  {
    if Valid(st) {
      InsertAllNumbered(st.events, ds);
    }
  }

  /** Appending metrics that all refer to stored sessions keeps the invariant. */
  lemma AddMetricsValid(st: Store, ds: seq<Draft<MetricData>>)
    requires forall i :: 0 <= i < |ds| ==> st.FoundByOrm(ds[i].sessionId)
    ensures Valid(st) ==> Valid(st.AddMetrics(ds))
  {
    if Valid(st) {
      InsertAllNumbered(st.metrics, ds);
    }
  }
}

=== FILE: environment.dfy ===
/** What a handler takes from outside its request: the clock, uuid4, and the
    library parsers and serialisers, which this model leaves abstract. */
module Environment {
  import opened Wrappers
  import opened Json
  import opened Clock

  datatype Env = Env(
    nowMicros: int,                            // datetime.utcnow()
    freshId: string,                           // str(uuid.uuid4())
    fromIso: string -> Option<DateTime>,       // datetime.fromisoformat, None where it raises
    parseDateTime: Value -> Option<DateTime>,  // pydantic's validation of a datetime field
    parseFloat: string -> Option<real>,        // float() of a string, None where it raises
    jsonDumps: Value -> string,                // json.dumps
    pyStr: Value -> string)                    // Python's str() of a number, a boolean or a dict
  {
    /** `datetime.utcnow()`: always naive. */
    function Now(): DateTime {
      Naive(nowMicros)
    }
  }

  /** `datetime.fromisoformat(s.replace('Z', '+00:00'))` with any parse
      failure masked by the current time. */
  function ParseZulu(s: string, env: Env): (t: DateTime)
    ensures env.fromIso(ReplaceZ(s)).Some? ==> t == env.fromIso(ReplaceZ(s)).value
    ensures env.fromIso(ReplaceZ(s)).None? ==> t == env.Now()
  {
    env.fromIso(ReplaceZ(s)).GetOr(env.Now())
  }

  /** `json.dumps(d) if d else None`. */
  function JsonDetails(d: Value, env: Env): (r: Option<string>)
    ensures r.Some? <==> Truthy(d)
    ensures r.Some? ==> r.value == env.jsonDumps(d)
  {
    if Truthy(d) then Some(env.jsonDumps(d)) else None
  }

  /** `str(d) if d else None`. */
  function ReprDetails(d: Value, env: Env): (r: Option<string>)
    ensures r.Some? <==> Truthy(d)
    ensures r.Some? ==> r.value == env.pyStr(d)
  {
    if Truthy(d) then Some(env.pyStr(d)) else None
  }
}

=== FILE: findings.dfy ===
/** Two defects, each as written and corrected.

    An end time that carries a UTC offset (a client's "...Z" included)
    cannot end a session in any of the three implementations: the stored
    start time is naive, and Python refuses to subtract an offset-aware
    datetime from a naive one. Read on the UTC time line instead, the same
    requests end the session with the expected duration.

    The typed router stores an event's details as `str(details)` but
    declares its response as EventResponse, whose `details` is a dict: an
    event with details is committed and the client still gets 500. Returned
    as stored, the same request gets 201 with its row. */
module Findings {
  import opened Wrappers
  import opened Json
  import opened Clock
  import opened Environment
  import opened Db
  import opened Api
  import opened Schemas
  import FlaskApp
  import SimpleRoutes
  import TypedRoutes

  /** An end_time string whose rewritten form parses to an aware datetime. */
  predicate AwareEnd(f: Field, env: Env) {
    && f.Some? && f.value.Str? && f.value.s != ""
    && env.fromIso(ReplaceZ(f.value.s)).Some?
    && env.fromIso(ReplaceZ(f.value.s)).value.aware
  }

  // ------------------------------------------------------------- as written

  lemma FlaskRefusesAwareEnd(st: Store, req: EndRequest, env: Env)
    requires Valid(st)
    requires req.sessionId.Id? && req.sessionId.key in st.sessions
    requires AwareEnd(req.endTime, env)
    ensures FlaskApp.EndSession(st, req, env, AsWritten) == Rejected(BAD_REQUEST, OffsetMismatch)
  {
    assert Consistent(st.sessions[req.sessionId.key]);
  }

  lemma SimpleRefusesAwareEnd(st: Store, req: EndRequest, env: Env)
    requires Valid(st)
    requires st.FoundByOrm(req.sessionId.Get())
    requires AwareEnd(req.endTime, env)
    ensures SimpleRoutes.EndSession(st, req, env, AsWritten) == Rejected(SERVER_ERROR, OffsetMismatch)
  {
    var k := req.sessionId.Get();
    if k.Some? {
      assert Consistent(st.sessions[k.value]);
    } else {
      assert Consistent(st.anonymous[0]);
    }
  }

  lemma TypedRefusesAwareEnd(st: Store, f: EndForm, env: Env)
    requires Valid(st)
    requires f.sessionId in st.sessions
    requires f.endTime.Some? && f.endTime.value.aware
    ensures TypedRoutes.End(st, f, env, AsWritten) == Rejected(SERVER_ERROR, OffsetMismatch)
  {
    assert Consistent(st.sessions[f.sessionId]);
  }

  /** The parser of the concrete example: the rewritten text
      "2024-01-01T00:02:05+00:00" read as 125 seconds past the session's
      start, with its UTC offset. */
  function ZuluParser(s: string): Option<DateTime> {
    Some(DateTime(125 * MicrosPerSecond, true))
  }

  const ZuluEnv: Env := Env(0, "", ZuluParser, _ => Some(DateTime(125 * MicrosPerSecond, true)), _ => None, _ => "", _ => "")

  /** Session "S1" started at the epoch of the example. */
  const OneSession: Store := Empty.(sessions := map["S1" := Started(Str("P1"), Str(""), Naive(0))])

  /** The end request every client library produces for a UTC instant. */
  const ZuluEnd: EndRequest := EndRequest(Id("S1"), Some(Str("2024-01-01T00:02:05Z")))

  lemma OneSessionValid()
    ensures Valid(OneSession)
  {
  }

  /** The typed router reads the same body as an aware end time. */
  lemma ZuluEndParses()
    ensures ParseEnd(ZuluEnd, ZuluEnv) == Pass(EndForm("S1", Some(DateTime(125 * MicrosPerSecond, true))))
  {
  }

  /** The concrete failure: 400 in Flask, 500 in both FastAPI routers. */
  lemma ZuluEndRefusedFlask()
    ensures FlaskApp.EndSession(OneSession, ZuluEnd, ZuluEnv, AsWritten) == Rejected(BAD_REQUEST, OffsetMismatch)
  {
    OneSessionValid();
    FlaskRefusesAwareEnd(OneSession, ZuluEnd, ZuluEnv);
  }

  lemma ZuluEndRefusedSimple()
    ensures SimpleRoutes.EndSession(OneSession, ZuluEnd, ZuluEnv, AsWritten) == Rejected(SERVER_ERROR, OffsetMismatch)
  {
    OneSessionValid();
    SimpleRefusesAwareEnd(OneSession, ZuluEnd, ZuluEnv);
  }

  lemma ZuluEndRefusedTyped()
    ensures TypedRoutes.EndSession(OneSession, ZuluEnd, ZuluEnv, AsWritten) == Rejected(SERVER_ERROR, OffsetMismatch)
  {
    OneSessionValid();
    ZuluEndParses();
    TypedRefusesAwareEnd(OneSession, EndForm("S1", Some(DateTime(125 * MicrosPerSecond, true))), ZuluEnv);
  }

  // -------------------------------------------------------------- corrected

  /** Read on the UTC time line, every stored session can be ended, with the
      duration truncated from the distance between the two instants. */
  lemma FlaskEndsAnyOffset(st: Store, req: EndRequest, env: Env)
    requires req.sessionId.Id? && req.sessionId.key in st.sessions
    ensures
      var o := FlaskApp.EndSession(st, req, env, Corrected);
      var k := req.sessionId.key;
      var end := FlaskApp.EndTime(req.endTime, env);
      && o.Accepted? && k in o.store.sessions
      && o.store.sessions[k].endTime == Some(end)
      && o.store.sessions[k].duration == Some(TruncSeconds(end.micros - st.sessions[k].startTime.micros))
  {
  }

  lemma SimpleEndsAnyOffset(st: Store, req: EndRequest, env: Env)
    requires st.FoundByOrm(req.sessionId.Get())
    ensures
      var o := SimpleRoutes.EndSession(st, req, env, Corrected);
      var k := req.sessionId.Get();
      var end := SimpleRoutes.LenientTime(Get(req.endTime), env);
      && o.Accepted? && o.store.FoundByOrm(k)
      && o.store.Fetch(k).endTime == Some(end)
      && o.store.Fetch(k).duration == Some(TruncSeconds(end.micros - st.Fetch(k).startTime.micros))
  {
  }

  lemma TypedEndsAnyOffset(st: Store, f: EndForm, env: Env)
    requires f.sessionId in st.sessions
    ensures
      var o := TypedRoutes.End(st, f, env, Corrected);
      var end := f.endTime.GetOr(env.Now());
      && o.Accepted? && f.sessionId in o.store.sessions
      && o.store.sessions[f.sessionId].endTime == Some(end)
      && o.store.sessions[f.sessionId].duration == Some(TruncSeconds(end.micros - st.sessions[f.sessionId].startTime.micros))
  {
  }

  /** The concrete example, corrected: the session ends after 125 seconds in
      all three implementations. */
  lemma ZuluEndCorrectedFlask()
    ensures
      var o := FlaskApp.EndSession(OneSession, ZuluEnd, ZuluEnv, Corrected);
      o.Accepted? && "S1" in o.store.sessions && o.store.sessions["S1"].duration == Some(125)
  {
    assert TruncSeconds(125 * MicrosPerSecond - 0) == 125;
    FlaskEndsAnyOffset(OneSession, ZuluEnd, ZuluEnv);
  }

  lemma ZuluEndCorrectedSimple()
    ensures
      var o := SimpleRoutes.EndSession(OneSession, ZuluEnd, ZuluEnv, Corrected);
      o.Accepted? && "S1" in o.store.sessions && o.store.sessions["S1"].duration == Some(125)
  {
    assert TruncSeconds(125 * MicrosPerSecond - 0) == 125;
    SimpleEndsAnyOffset(OneSession, ZuluEnd, ZuluEnv);
  }

  lemma ZuluEndCorrectedTyped()
    ensures
      var o := TypedRoutes.EndSession(OneSession, ZuluEnd, ZuluEnv, Corrected);
      o.Accepted? && "S1" in o.store.sessions && o.store.sessions["S1"].duration == Some(125)
  {
    assert TruncSeconds(125 * MicrosPerSecond - 0) == 125;
    ZuluEndParses();
    TypedEndsAnyOffset(OneSession, EndForm("S1", Some(DateTime(125 * MicrosPerSecond, true))), ZuluEnv);
  }

  // ------------------------------------------- event details, as written

  /** As written, an event with details is stored, and then its row fails
      the response model: 500 for a committed row. */
  lemma TypedRefusesDetailedResponse(st: Store, f: EventForm, env: Env)
    requires f.sessionId in st.sessions
    requires f.details.Some? && f.details.value != map[]
    ensures TypedRoutes.AddEvent(st, f, env, AsWritten)
      == Accepted(SERVER_ERROR, st.(events := st.events.Insert(TypedRoutes.EventDraft(f, env))), ResponseRefused)
  {
  }

  /** A level-up event in S1 carrying `{"level": 5}` as details. */
  const DetailedEvent: EventRequest :=
    EventRequest(Id("S1"), Some(Str("progress")), Some(Str("level_up")), None, None, None, None, Some(Obj(map["level" := Num(5.0)])), None)

  /** The typed router reads the detailed event as this form. */
  lemma DetailedEventParses()
    ensures ParseEvent(DetailedEvent, ZuluEnv)
      == Pass(EventForm("S1", "progress", "level_up", None, None, None, None, Some(map["level" := Num(5.0)]), None))
  {
  }

  /** The concrete failure: the event is stored with id 1, and the client is
      told 500. */
  lemma DetailedEventRefused()
    ensures
      var o := TypedRoutes.CreateEvent(OneSession, DetailedEvent, ZuluEnv, AsWritten);
      && o.Accepted? && o.code == SERVER_ERROR && o.body == ResponseRefused
      && |o.store.events.rows| == 1 && o.store.events.rows[0].id == 1
  {
    DetailedEventParses();
    assert "level" in map["level" := Num(5.0)];
    TypedRefusesDetailedResponse(OneSession, EventForm("S1", "progress", "level_up", None, None, None, None, Some(map["level" := Num(5.0)]), None), ZuluEnv);
  }

  // -------------------------------------------- event details, corrected

  /** Corrected, every event in a stored session is answered with 201 and
      the row as stored, details included. */
  lemma TypedReturnsAnyDetails(st: Store, f: EventForm, env: Env)
    requires f.sessionId in st.sessions
    ensures
      var row := Row(st.events.nextId, Some(f.sessionId), TypedRoutes.EventDraft(f, env).data);
      TypedRoutes.AddEvent(st, f, env, Corrected) == Accepted(CREATED, st.(events := st.events.Insert(TypedRoutes.EventDraft(f, env))), EventBody(row))
  {
  }

  /** The concrete example, corrected: 201 with row 1, holding `str()` of
      the details. */
  lemma DetailedEventCorrected()
    ensures
      var o := TypedRoutes.CreateEvent(OneSession, DetailedEvent, ZuluEnv, Corrected);
      && o.Accepted? && o.code == CREATED && o.body.EventBody?
      && o.body.event.id == 1
      && o.body.event.data.details == Some(ZuluEnv.pyStr(Obj(map["level" := Num(5.0)])))
  {
    DetailedEventParses();
    assert "level" in map["level" := Num(5.0)];
    TypedReturnsAnyDetails(OneSession, EventForm("S1", "progress", "level_up", None, None, None, None, Some(map["level" := Num(5.0)]), None), ZuluEnv);
  }
}

=== FILE: flask_app.dfy ===
/** The raw-SQL Flask application: six handlers over sqlite3 with explicit
    required-field checks, per-item skipping in batches and errors caught as 400. */
module FlaskApp {
  import opened Wrappers
  import opened Json
  import opened Clock
  import opened Environment
  import opened Db
  import opened Api

  // ---------------------------------------------------------------- sessions

  /** `data.get('session_id', str(uuid.uuid4()))`: an absent key gets a fresh
      id, an explicit null is inserted as NULL. */
  function StartKey(req: StartRequest, env: Env): (k: Option<string>)
    ensures k.None? <==> req.sessionId.NullId?
    ensures req.sessionId.NoId? ==> k == Some(env.freshId)
    ensures req.sessionId.Id? ==> k == Some(req.sessionId.key)
  {
    match req.sessionId
    case NoId => Some(env.freshId)
    case NullId => None
    case Id(k) => Some(k)
  }

  /** start_session: player_id must be present; device_info defaults to ''.
      A session_id that is already stored violates the UNIQUE column and the
      caught exception is answered with 400. */
  function StartSession(st: Store, req: StartRequest, env: Env): (o: Outcome)
    ensures o.Rejected? <==> req.playerId.None? || st.FoundByEquals(StartKey(req, env))
    ensures req.playerId.None? ==> o == Rejected(BAD_REQUEST, MissingField)
    ensures req.playerId.Some? && o.Rejected? ==> o == Rejected(BAD_REQUEST, Conflict)
    ensures o.Accepted? ==>
      && o.code == CREATED
      && o.body.SessionBody?
      && o.body.sessionId == StartKey(req, env)
      && o.body.session == Started(req.playerId.value, req.deviceInfo.GetOr(Str("")), env.Now())
      && AddedSession(st, o.store, o.body.sessionId, o.body.session)
    ensures Valid(st) ==> Valid(After(st, o))
  {
    if req.playerId.None? then Rejected(BAD_REQUEST, MissingField)
    else
      var key := StartKey(req, env);
      var s := Started(req.playerId.value, req.deviceInfo.GetOr(Str("")), env.Now());
      if st.FoundByEquals(key) then Rejected(BAD_REQUEST, Conflict)
      else
        AddSessionValid(st, key, s);
        Accepted(CREATED, st.AddSession(key, s), SessionBody(key, s))
  }

  /** The end instant: a string `end_time` is parsed after the 'Z' rewrite and
      any parse failure falls back to the current time; so does a non-string
      value. An absent key reads as `utcnow().isoformat()`, which parses back
      to the current time. */
  function EndTime(f: Field, env: Env): (t: DateTime)
    ensures t == env.Now() || (f.Some? && f.value.Str? && env.fromIso(ReplaceZ(f.value.s)) == Some(t))
    ensures f.Some? && f.value.Str? && env.fromIso(ReplaceZ(f.value.s)).Some? ==> t == env.fromIso(ReplaceZ(f.value.s)).value
  {
    match f
    case Some(Str(s)) => ParseZulu(s, env)
    case _ => env.Now()
  }

  /** end_session: 400 without session_id, 404 when no row has that key
      (a null key never matches `= ?`); otherwise sets end_time and
      `duration_seconds = int(end - start)` with no check that end follows
      start. A naive/aware subtraction raises and is caught as 400. */
  function EndSession(st: Store, req: EndRequest, env: Env, how: Version): (o: Outcome)
    ensures req.sessionId.NoId? ==> o == Rejected(BAD_REQUEST, MissingField)
    ensures !req.sessionId.NoId? && !st.FoundByEquals(req.sessionId.Get()) ==> o == Rejected(NOT_FOUND, SessionNotFound)
    ensures st.FoundByEquals(req.sessionId.Get()) ==>
      (o.Rejected? <==> how.AsWritten? && st.sessions[req.sessionId.key].startTime.aware != EndTime(req.endTime, env).aware)
    ensures o.Rejected? && st.FoundByEquals(req.sessionId.Get()) ==> o == Rejected(BAD_REQUEST, OffsetMismatch)
    ensures o.Accepted? ==>
      && o.code == OK
      && st.FoundByEquals(req.sessionId.Get())
      && var k := req.sessionId.key;
      var end := EndTime(req.endTime, env);
      && k in o.store.sessions
      && o.store.sessions[k] == Ended(st.sessions[k], end, TruncSeconds(end.micros - st.sessions[k].startTime.micros))
      && o.body == SessionBody(Some(k), o.store.sessions[k])
      && OnlySessionChanged(st, o.store, Some(k))
    ensures Valid(st) ==> Valid(After(st, o))
  {
    if req.sessionId.NoId? then Rejected(BAD_REQUEST, MissingField)
    else if !st.FoundByEquals(req.sessionId.Get()) then Rejected(NOT_FOUND, SessionNotFound)
    else
      var key := req.sessionId.Get();
      var s := st.sessions[key.value];
      var end := EndTime(req.endTime, env);
      match Elapsed(how, s.startTime, end)
      case None => Rejected(BAD_REQUEST, OffsetMismatch)
      case Some(d) =>
        var s' := Ended(s, end, d);
        PutSessionValid(st, key, s');
        Accepted(OK, st.PutSession(key, s'), SessionBody(key, s'))
  }

  // ------------------------------------------------------------------ events

  predicate HasEventFields(r: EventRequest) {
    !r.sessionId.NoId? && r.eventType.Some? && r.eventName.Some?
  }

  /** `data.get('timestamp', utcnow().isoformat())`: a present value is
      stored as the client sent it. */
  function Timestamp(f: Field, env: Env): (t: Stamp)
    ensures f.None? ==> t == At(env.Now())
    ensures f.Some? ==> t == Verbatim(f.value)
  {
    match f
    case None => At(env.Now())
    case Some(v) => Verbatim(v)
  }

  /** The row create_event and the batch loop insert for one item. */
  function EventDraft(r: EventRequest, env: Env): Draft<EventData> {
    Draft(r.sessionId.Get(), EventData(
      Get(r.eventType), Get(r.eventName), Timestamp(r.timestamp, env), Get(r.levelId),
      Get(r.positionX), Get(r.positionY), Get(r.positionZ), JsonDetails(Get(r.details), env)))
  }

  /** create_event: 400 when a required key is absent, 404 for an unknown
      session, otherwise one new row with the next id. */
  function CreateEvent(st: Store, req: EventRequest, env: Env): (o: Outcome)
    ensures !HasEventFields(req) ==> o == Rejected(BAD_REQUEST, MissingField)
    ensures HasEventFields(req) && !st.FoundByEquals(req.sessionId.Get()) ==> o == Rejected(NOT_FOUND, SessionNotFound)
    ensures o.Accepted? <==> HasEventFields(req) && st.FoundByEquals(req.sessionId.Get())
    ensures o.Accepted? ==>
      && o.code == CREATED
      && o.body.EventBody?
      && AppendedOne(st.events, o.store.events, o.body.event)
      && OnlyEventsChanged(st, o.store)
      && o.body.event.sessionId == req.sessionId.Get()
      && o.body.event.data == EventDraft(req, env).data
      && (o.body.event.data.details.Some? <==> Truthy(Get(req.details)))
    ensures Valid(st) ==> Valid(After(st, o))
  {
    if !HasEventFields(req) then Rejected(BAD_REQUEST, MissingField)
    else if !st.FoundByEquals(req.sessionId.Get()) then Rejected(NOT_FOUND, SessionNotFound)
    else
      var d := EventDraft(req, env);
      InsertIsInsertAll(st.events, d);
      AddEventsValid(st, [d]);
      Accepted(CREATED, st.(events := st.events.Insert(d)), EventBody(Row(st.events.nextId, d.sessionId, d.data)))
  }

  /** The pre-check loop: the first present `session_id` (null included) for
      which no row exists. The source iterates a Python set, whose order is
      unspecified; only the reported id's membership is promised. */
  function FirstUnknown(st: Store, ids: seq<IdField>): (r: Option<Option<string>>)
    ensures r.None? <==> forall i :: 0 <= i < |ids| && !ids[i].NoId? ==> st.FoundByEquals(ids[i].Get())
    ensures r.Some? ==> exists i :: 0 <= i < |ids| && !ids[i].NoId? && !st.FoundByEquals(ids[i].Get()) && ids[i].Get() == r.value
  {
    if ids == [] then None
    else if !ids[0].NoId? && !st.FoundByEquals(ids[0].Get()) then Some(ids[0].Get())
    else
      var r := FirstUnknown(st, ids[1..]);
      assert forall i :: 1 <= i < |ids| ==> ids[1..][i - 1] == ids[i];
      r
  }

  /** An item the insert loop keeps: all three required keys present. */
  function EventItem(r: EventRequest, env: Env): Option<Draft<EventData>> {
    if HasEventFields(r) then Some(EventDraft(r, env)) else None
  }

  function EventItems(env: Env): EventRequest -> Option<Draft<EventData>> {
    r => EventItem(r, env)
  }

  /** The drafts the insert loop builds: one per complete item, incomplete
      items skipped. */
  function KeptEvents(items: seq<EventRequest>, env: Env): (kept: seq<Draft<EventData>>)
    ensures |kept| <= |items|
    ensures |kept| == |items| <==> forall i :: 0 <= i < |items| ==> HasEventFields(items[i])
    ensures forall i :: 0 <= i < |items| && HasEventFields(items[i]) ==> EventDraft(items[i], env) in kept
  {
    var kept := FilterMap(items, EventItems(env));
    assert forall i :: 0 <= i < |items| ==> EventItems(env)(items[i]) == EventItem(items[i], env);
    kept
  }

  /** One more turn of the insert loop: the next item's row is appended when
      it has the three required keys, and it is skipped otherwise. */
  lemma KeptEventsStep(items: seq<EventRequest>, r: EventRequest, env: Env)
    ensures KeptEvents(items + [r], env) == KeptEvents(items, env) + (if HasEventFields(r) then [EventDraft(r, env)] else [])
  {
    FilterMapSnoc(items, r, EventItems(env));
  }

  /** Every kept draft is the row of some complete item. */
  lemma KeptEventsFromItems(items: seq<EventRequest>, env: Env)
    ensures forall j :: 0 <= j < |KeptEvents(items, env)| ==>
      exists i :: 0 <= i < |items| && HasEventFields(items[i]) && KeptEvents(items, env)[j] == EventDraft(items[i], env)
  {
    var kept := KeptEvents(items, env);
    forall j | 0 <= j < |kept|
      ensures exists i :: 0 <= i < |items| && HasEventFields(items[i]) && kept[j] == EventDraft(items[i], env)
    {
      var i :| 0 <= i < |items| && EventItems(env)(items[i]) == Some(kept[j]);
      assert EventItem(items[i], env) == Some(kept[j]);
      assert HasEventFields(items[i]) && kept[j] == EventDraft(items[i], env);
    }
  }

  /** Every kept draft refers to a session the pre-check found. */
  lemma KeptEventsKnown(st: Store, items: seq<EventRequest>, env: Env)
    requires forall i :: 0 <= i < |items| && !items[i].sessionId.NoId? ==> st.FoundByEquals(items[i].sessionId.Get())
    ensures forall j :: 0 <= j < |KeptEvents(items, env)| ==> st.FoundByEquals(KeptEvents(items, env)[j].sessionId)
  {
    FilterMapKeeps(items, EventItems(env), (d: Draft<EventData>) => st.FoundByEquals(d.sessionId));
  }

  /** create_events_batch: 400 without an events list, 200 with no writes for
      an empty one, 404 naming one unknown referenced session with no writes;
      otherwise the complete items are inserted in order, incomplete ones are
      skipped, and the reported count is the number of items received. */
  function CreateEventsBatch(st: Store, req: Batch<EventRequest>, env: Env): (o: Outcome)
    ensures !req.Items? ==> o == Rejected(BAD_REQUEST, MissingArray)
    ensures req == Items([]) ==> o == Accepted(OK, st, NothingToProcess)
    ensures req.Items? && req.items != [] ==>
      (o.Rejected? <==> exists i :: 0 <= i < |req.items| && !req.items[i].sessionId.NoId? && !st.FoundByEquals(req.items[i].sessionId.Get()))
    ensures o.Rejected? && req.Items? ==>
      && o.code == NOT_FOUND
      && exists i :: 0 <= i < |req.items| && !req.items[i].sessionId.NoId? && !st.FoundByEquals(req.items[i].sessionId.Get())
                     && o.failure == SessionsNotFound({req.items[i].sessionId.Get()})
    ensures o.Accepted? && req.items != [] ==>
      && o.code == CREATED
      && o.body == CreatedCount(|req.items|)
      && OnlyEventsChanged(st, o.store)
      && AppendedAll(st.events, o.store.events, KeptEvents(req.items, env))
    ensures Valid(st) ==> Valid(After(st, o))
  {
    match req
    case Missing => Rejected(BAD_REQUEST, MissingArray)
    case NotList => Rejected(BAD_REQUEST, MissingArray)
    case Items(items) =>
      if items == [] then Accepted(OK, st, NothingToProcess)
      else
        match FirstUnknown(st, EventIds(items))
        case Some(x) => Rejected(NOT_FOUND, SessionsNotFound({x}))
        case None =>
          var kept := KeptEvents(items, env);
          KeptEventsKnown(st, items, env);
          AddEventsValid(st, kept);
          Accepted(CREATED, st.AddEvents(kept), CreatedCount(|items|))
  }

  // ----------------------------------------------------------------- metrics

  predicate HasMetricFields(r: MetricRequest) {
    !r.sessionId.NoId? && r.metricName.Some? && r.metricValue.Some?
  }

  /** The row create_metric and the batch loop insert for one item whose
      metric_value converted to `value`. */
  function MetricDraft(r: MetricRequest, value: real, env: Env): Draft<MetricData> {
    Draft(r.sessionId.Get(), MetricData(Get(r.metricName), value, Timestamp(r.timestamp, env), Get(r.levelId)))
  }

  /** create_metric: 400 when a required key is absent or metric_value is not
      a number (both before any lookup), 404 for an unknown session, otherwise
      one new row holding the converted value. */
  function CreateMetric(st: Store, req: MetricRequest, env: Env): (o: Outcome)
    ensures !HasMetricFields(req) ==> o == Rejected(BAD_REQUEST, MissingField)
    ensures HasMetricFields(req) && ToFloat(req.metricValue.value, env.parseFloat).None? ==> o == Rejected(BAD_REQUEST, NotANumber)
    ensures o.Accepted? <==>
      && HasMetricFields(req)
      && ToFloat(req.metricValue.value, env.parseFloat).Some?
      && st.FoundByEquals(req.sessionId.Get())
    ensures o.Rejected? && o.code == NOT_FOUND ==> o.failure == SessionNotFound && !st.FoundByEquals(req.sessionId.Get())
    ensures HasMetricFields(req) && ToFloat(req.metricValue.value, env.parseFloat).Some? && !st.FoundByEquals(req.sessionId.Get()) ==>
      o == Rejected(NOT_FOUND, SessionNotFound)
    ensures o.Accepted? ==>
      && o.code == CREATED
      && o.body.MetricBody?
      && AppendedOne(st.metrics, o.store.metrics, o.body.metric)
      && OnlyMetricsChanged(st, o.store)
      && o.body.metric.sessionId == req.sessionId.Get()
      && Some(o.body.metric.data.metricValue) == ToFloat(req.metricValue.value, env.parseFloat)
      && o.body.metric.data.metricName == req.metricName.value
      && o.body.metric.data == MetricDraft(req, ToFloat(req.metricValue.value, env.parseFloat).value, env).data
      && o.body.metric.data.levelId == Get(req.levelId)
      && (req.timestamp.None? ==> o.body.metric.data.timestamp == At(env.Now()))
      && (req.timestamp.Some? ==> o.body.metric.data.timestamp == Verbatim(req.timestamp.value))
    ensures Valid(st) ==> Valid(After(st, o))
  {
    if !HasMetricFields(req) then Rejected(BAD_REQUEST, MissingField)
    else
      match ToFloat(req.metricValue.value, env.parseFloat)
      case None => Rejected(BAD_REQUEST, NotANumber)
      case Some(x) =>
        if !st.FoundByEquals(req.sessionId.Get()) then Rejected(NOT_FOUND, SessionNotFound)
        else
          var d := MetricDraft(req, x, env);
          InsertIsInsertAll(st.metrics, d);
          AddMetricsValid(st, [d]);
          Accepted(CREATED, st.(metrics := st.metrics.Insert(d)), MetricBody(Row(st.metrics.nextId, d.sessionId, d.data)))
  }

  /** An item the batch loop keeps: required keys present and a numeric value. */
  function MetricItem(r: MetricRequest, env: Env): Option<Draft<MetricData>> {
    if !HasMetricFields(r) then None
    else
      match ToFloat(r.metricValue.value, env.parseFloat)
      case None => None
      case Some(x) => Some(MetricDraft(r, x, env))
  }

  function MetricItems(env: Env): MetricRequest -> Option<Draft<MetricData>> {
    r => MetricItem(r, env)
  }

  predicate Usable(r: MetricRequest, env: Env) {
    HasMetricFields(r) && ToFloat(r.metricValue.value, env.parseFloat).Some?
  }

  /** The drafts the batch loop builds: one per usable item, the others
      skipped. */
  function KeptMetrics(items: seq<MetricRequest>, env: Env): (kept: seq<Draft<MetricData>>)
    ensures |kept| <= |items|
    ensures |kept| == |items| <==> forall i :: 0 <= i < |items| ==> Usable(items[i], env)
    ensures forall i :: 0 <= i < |items| && Usable(items[i], env) ==>
      MetricDraft(items[i], ToFloat(items[i].metricValue.value, env.parseFloat).value, env) in kept
  {
    var kept := FilterMap(items, MetricItems(env));
    assert forall i :: 0 <= i < |items| ==> MetricItems(env)(items[i]) == MetricItem(items[i], env);
    kept
  }

  /** One more turn of the batch loop: the next item's row, holding its
      converted value, is appended when the item is usable, and it is
      skipped otherwise. */
  lemma KeptMetricsStep(items: seq<MetricRequest>, r: MetricRequest, env: Env)
    ensures KeptMetrics(items + [r], env) ==
      KeptMetrics(items, env) + (if Usable(r, env) then [MetricDraft(r, ToFloat(r.metricValue.value, env.parseFloat).value, env)] else [])
  {
    FilterMapSnoc(items, r, MetricItems(env));
  }

  /** Every kept draft is the row of some usable item, holding its converted value. */
  lemma KeptMetricsFromItems(items: seq<MetricRequest>, env: Env)
    ensures forall j :: 0 <= j < |KeptMetrics(items, env)| ==>
      exists i :: 0 <= i < |items| && Usable(items[i], env)
                  && KeptMetrics(items, env)[j] == MetricDraft(items[i], ToFloat(items[i].metricValue.value, env.parseFloat).value, env)
  {
    var kept := KeptMetrics(items, env);
    forall j | 0 <= j < |kept|
      ensures exists i :: 0 <= i < |items| && Usable(items[i], env)
                  && kept[j] == MetricDraft(items[i], ToFloat(items[i].metricValue.value, env.parseFloat).value, env)
    {
      var i :| 0 <= i < |items| && MetricItems(env)(items[i]) == Some(kept[j]);
      assert MetricItem(items[i], env) == Some(kept[j]);
      assert Usable(items[i], env);
      assert kept[j] == MetricDraft(items[i], ToFloat(items[i].metricValue.value, env.parseFloat).value, env);
    }
  }

  lemma KeptMetricsKnown(st: Store, items: seq<MetricRequest>, env: Env)
    requires forall i :: 0 <= i < |items| && !items[i].sessionId.NoId? ==> st.FoundByEquals(items[i].sessionId.Get())
    ensures forall j :: 0 <= j < |KeptMetrics(items, env)| ==> st.FoundByEquals(KeptMetrics(items, env)[j].sessionId)
  {
    FilterMapKeeps(items, MetricItems(env), (d: Draft<MetricData>) => st.FoundByEquals(d.sessionId));
  }

  /** create_metrics_batch: as the events batch, and an item whose
      metric_value does not convert is skipped too. */
  function CreateMetricsBatch(st: Store, req: Batch<MetricRequest>, env: Env): (o: Outcome)
    ensures !req.Items? ==> o == Rejected(BAD_REQUEST, MissingArray)
    ensures req == Items([]) ==> o == Accepted(OK, st, NothingToProcess)
    ensures req.Items? && req.items != [] ==>
      (o.Rejected? <==> exists i :: 0 <= i < |req.items| && !req.items[i].sessionId.NoId? && !st.FoundByEquals(req.items[i].sessionId.Get()))
    ensures o.Rejected? && req.Items? ==>
      && o.code == NOT_FOUND
      && exists i :: 0 <= i < |req.items| && !req.items[i].sessionId.NoId? && !st.FoundByEquals(req.items[i].sessionId.Get())
                     && o.failure == SessionsNotFound({req.items[i].sessionId.Get()})
    ensures o.Accepted? && req.items != [] ==>
      && o.code == CREATED
      && o.body == CreatedCount(|req.items|)
      && OnlyMetricsChanged(st, o.store)
      && AppendedAll(st.metrics, o.store.metrics, KeptMetrics(req.items, env))
    ensures Valid(st) ==> Valid(After(st, o))
  {
    match req
    case Missing => Rejected(BAD_REQUEST, MissingArray)
    case NotList => Rejected(BAD_REQUEST, MissingArray)
    case Items(items) =>
      if items == [] then Accepted(OK, st, NothingToProcess)
      else
        match FirstUnknown(st, MetricIds(items))
        case Some(x) => Rejected(NOT_FOUND, SessionsNotFound({x}))
        case None =>
          var kept := KeptMetrics(items, env);
          KeptMetricsKnown(st, items, env);
          AddMetricsValid(st, kept);
          Accepted(CREATED, st.AddMetrics(kept), CreatedCount(|items|))
  }
}

=== FILE: json.dfy ===
/** Decoded JSON request bodies and the Python operations the handlers apply to them. */
module Json {
  import opened Wrappers

  datatype Value =
    | Null
    | Bool(b: bool)
    | Num(x: real)
    | Str(s: string)
    | Arr(items: seq<Value>)
    | Obj(fields: map<string, Value>)

  /** Python truthiness: None, False, 0, "", [] and {} are false. */
  predicate Truthy(v: Value) {
    match v
    case Null => false
    case Bool(b) => b
    case Num(x) => x != 0.0
    case Str(s) => s != ""
    case Arr(items) => items != []
    case Obj(fields) => fields != map[]
  }

  /** The values pydantic's `str` validator accepts: strings, and numbers
      and booleans, which it converts with str(). */
  predicate StrLike(v: Value) {
    v.Str? || v.Num? || v.Bool?
  }

  /** An element `dict()` reads as one key-value pair: something of length
      two whose first element is a valid `str` key. A two-element list, a
      two-character string, and an object with two keys, whose iteration
      yields its keys, all qualify. */
  predicate PairLike(v: Value) {
    || (v.Arr? && |v.items| == 2 && StrLike(v.items[0]))
    || (v.Str? && |v.s| == 2)
    || (v.Obj? && |v.fields| == 2)
  }

  /** A value pydantic reads as a `Dict[str, Any]`: an object as it is, or
      whatever `dict(v)` accepts otherwise, namely the empty string and a
      list of pairs. Any other string, a number, a boolean and null fail. */
  predicate DictLike(v: Value) {
    v.Obj? || v == Str("") || (v.Arr? && forall i :: 0 <= i < |v.items| ==> PairLike(v.items[i]))
  }

  /** A value that `List[Dict[str, Any]]` accepts: a list (no other value
      is read as one) each of whose items reads as a dict. */
  predicate ListOfDicts(v: Value) {
    v.Arr? && forall i :: 0 <= i < |v.items| ==> DictLike(v.items[i])
  }

  /** One key of a request object: `None` when the key is absent,
      `Some(Null)` when it is present with the value null. */
  type Field = Option<Value>

  /** `data.get(key)`: an absent key reads as null. */
  function Get(f: Field): Value {
    f.GetOr(Null)
  }

  /** Python's `float(v)`: numbers and booleans convert, strings go through
      the float parser, and None, lists and dicts raise (None here). */
  function ToFloat(v: Value, parse: string -> Option<real>): (r: Option<real>)
    ensures v.Num? ==> r == Some(v.x)
    ensures v.Bool? ==> r == Some(if v.b then 1.0 else 0.0)
    ensures v.Str? ==> r == parse(v.s)
    ensures v.Null? || v.Arr? || v.Obj? ==> r.None?
  {
    match v
    case Num(x) => Some(x)
    case Bool(b) => Some(if b then 1.0 else 0.0)
    case Str(s) => parse(s)
    case _ => None
  }
}

=== FILE: scenario.dfy ===
/** One session's life against the mounted router: player P1 starts session
    S1 at time 0 and ends it 125 seconds later; a levelup event and a score
    metric of 4200 are then recorded in it; finally a batch of two events
    for the unknown session S2 is refused without writing anything. Each
    step states the whole store it leaves behind. */
module Scenario {
  import opened Wrappers
  import opened Json
  import opened Clock
  import opened Environment
  import opened Db
  import opened Api
  import SimpleRoutes

  /** A server whose clock reads `seconds` past the epoch of the scenario and
      whose parsers accept nothing (no request here carries a time). */
  function ClockAt(seconds: int): Env {
    Env(seconds * MicrosPerSecond, "", _ => None, _ => None, _ => None, _ => "", _ => "")
  }

  const Begun: Session := Started(Str("P1"), Null, Naive(0))
  const Finished: Session := Ended(Begun, Naive(125 * MicrosPerSecond), 125)

  const LevelUp: EventRequest :=
    EventRequest(Id("S1"), Some(Str("levelup")), Some(Str("reached_level_5")), Some(Str("3")), None, None, None, None, None)
  const LevelUpRow: Row<EventData> :=
    Row(1, Some("S1"), EventData(Str("levelup"), Str("reached_level_5"), At(Naive(130 * MicrosPerSecond)), Str("3"), Null, Null, Null, None))

  const Score: MetricRequest := MetricRequest(Id("S1"), Some(Str("score")), Some(Num(4200.0)), None, None)
  const ScoreRow: Row<MetricData> := Row(1, Some("S1"), MetricData(Str("score"), 4200.0, At(Naive(140 * MicrosPerSecond)), Null))

  /** The stores after each step. */
  const AfterStart: Store := Empty.(sessions := map["S1" := Begun])
  const AfterEnd: Store := Empty.(sessions := map["S1" := Finished])
  const AfterEvent: Store := AfterEnd.(events := Table([LevelUpRow], 2))
  const AfterMetric: Store := AfterEvent.(metrics := Table([ScoreRow], 2))

  /** Two events in the unknown session "S2". */
  const StrayBatch: seq<EventRequest> := [LevelUp.(sessionId := Id("S2")), LevelUp.(sessionId := Id("S2"))]

  lemma StartStep()
    ensures SimpleRoutes.StartSession(Empty, StartRequest(Id("S1"), Some(Str("P1")), None), ClockAt(0))
      == Accepted(CREATED, AfterStart, SessionBody(Some("S1"), Begun))
  {
  }

  lemma EndStep()
    ensures SimpleRoutes.EndSession(AfterStart, EndRequest(Id("S1"), None), ClockAt(125), AsWritten)
      == Accepted(OK, AfterEnd, SessionBody(Some("S1"), Finished))
  {
    assert TruncSeconds(125 * MicrosPerSecond - 0) == 125;
  }

  lemma EventStep()
    ensures SimpleRoutes.CreateEvent(AfterEnd, LevelUp, ClockAt(130)) == Accepted(CREATED, AfterEvent, EventBody(LevelUpRow))
  {
  }

  lemma MetricStep()
    ensures SimpleRoutes.CreateMetric(AfterEvent, Score, ClockAt(140)) == Accepted(CREATED, AfterMetric, MetricBody(ScoreRow))
  {
  }

  lemma StrayBatchStep()
    ensures SimpleRoutes.EventsBatch(AfterMetric, StrayBatch, ClockAt(150)) == Rejected(NOT_FOUND, SessionsNotFound({Some("S2")}))
    ensures After(AfterMetric, SimpleRoutes.EventsBatch(AfterMetric, StrayBatch, ClockAt(150))) == AfterMetric
  {
    var missing := SimpleRoutes.MissingIds(AfterMetric, EventIds(StrayBatch));
    assert EventIds(StrayBatch)[0].Get() == Some("S2");
    assert forall x :: x in Requested(EventIds(StrayBatch)) ==> x == Some("S2");
    assert Some("S2") in missing;
    assert missing == {Some("S2")};
  }
}

=== FILE: schemas.dfy ===
/** The pydantic request models of the typed router: a raw request body is
    either turned into a typed form, every field checked, or refused as a
    whole (FastAPI answers 422 before the handler runs). */
module Schemas {
  import opened Wrappers
  import opened Json
  import opened Clock
  import opened Environment
  import opened Api

  /** SessionStart */
  datatype StartForm = StartForm(sessionId: string, playerId: string, deviceInfo: Option<string>)

  /** SessionEnd */
  datatype EndForm = EndForm(sessionId: string, endTime: Option<DateTime>)

  /** EventCreate */
  datatype EventForm = EventForm(
    sessionId: string,
    eventType: string,
    eventName: string,
    levelId: Option<string>,
    positionX: Option<real>,
    positionY: Option<real>,
    positionZ: Option<real>,
    details: Option<map<string, Value>>,
    timestamp: Option<DateTime>)

  /** MetricCreate */
  datatype MetricForm = MetricForm(
    sessionId: string,
    metricName: string,
    metricValue: real,
    levelId: Option<string>,
    timestamp: Option<DateTime>)

  // ------------------------------------------------------------ field types

  /** Whether a field is absent or null. */
  predicate Unset(f: Field) {
    f.None? || f == Some(Null)
  }

  function StrOf(v: Value, env: Env): string
    requires StrLike(v)
  {
    if v.Str? then v.s else env.pyStr(v)
  }

  /** `session_id: str`. Only string ids are modelled. */
  function RequiredId(f: IdField): (r: Validated<string>)
    ensures r.Pass? <==> f.Id?
    ensures r.Pass? ==> r.value == f.key
  {
    if f.Id? then Pass(f.key) else Fail
  }

  /** A `str` field without a default: absent and null are refused. */
  function RequiredStr(f: Field, env: Env): (r: Validated<string>)
    ensures r.Pass? <==> f.Some? && StrLike(f.value)
    ensures f.Some? && f.value.Str? ==> r == Pass(f.value.s)
  {
    if f.Some? && StrLike(f.value) then Pass(StrOf(f.value, env)) else Fail
  }

  /** An `Optional[str] = None` field: absent and null read as None. */
  function OptionalStr(f: Field, env: Env): (r: Validated<Option<string>>)
    ensures r.Pass? <==> Unset(f) || StrLike(f.value)
    ensures r.Pass? ==> (r.value.None? <==> Unset(f))
    ensures f.Some? && f.value.Str? ==> r == Pass(Some(f.value.s))
  {
    if Unset(f) then Pass(None)
    else if StrLike(f.value) then Pass(Some(StrOf(f.value, env)))
    else Fail
  }

  /** A `float` field without a default: whatever Python's float() accepts. */
  function RequiredFloat(f: Field, env: Env): (r: Validated<real>)
    ensures r.Pass? <==> f.Some? && ToFloat(f.value, env.parseFloat).Some?
    ensures r.Pass? ==> Some(r.value) == ToFloat(f.value, env.parseFloat)
  {
    if f.Some? && ToFloat(f.value, env.parseFloat).Some? then Pass(ToFloat(f.value, env.parseFloat).value) else Fail
  }

  /** Whether an `Optional[float] = None` field validates. */
  predicate FloatOk(f: Field, env: Env) {
    Unset(f) || ToFloat(f.value, env.parseFloat).Some?
  }

  function OptionalFloat(f: Field, env: Env): (r: Validated<Option<real>>)
    ensures r.Pass? <==> FloatOk(f, env)
    ensures r.Pass? ==> (r.value.None? <==> Unset(f))
    ensures r.Pass? && !Unset(f) ==> r.value == ToFloat(f.value, env.parseFloat)
  {
    if Unset(f) then Pass(None)
    else if ToFloat(f.value, env.parseFloat).Some? then Pass(ToFloat(f.value, env.parseFloat))
    else Fail
  }

  /** An `Optional[Dict[str, Any]] = None` field: a JSON object. */
  function OptionalDict(f: Field): (r: Validated<Option<map<string, Value>>>)
    ensures r.Pass? <==> Unset(f) || f.value.Obj?
    ensures r.Pass? ==> (r.value.None? <==> Unset(f))
    ensures r.Pass? && r.value.Some? ==> f == Some(Obj(r.value.value))
  {
    if Unset(f) then Pass(None)
    else if f.value.Obj? then Pass(Some(f.value.fields))
    else Fail
  }

  /** Whether a `datetime = None` field validates. */
  predicate DateTimeOk(f: Field, env: Env) {
    Unset(f) || env.parseDateTime(f.value).Some?
  }

  function OptionalDateTime(f: Field, env: Env): (r: Validated<Option<DateTime>>)
    ensures r.Pass? <==> DateTimeOk(f, env)
    ensures r.Pass? ==> (r.value.None? <==> Unset(f))
    ensures r.Pass? && !Unset(f) ==> r.value == env.parseDateTime(f.value)
  {
    if Unset(f) then Pass(None)
    else if env.parseDateTime(f.value).Some? then Pass(env.parseDateTime(f.value))
    else Fail
  }

  // ------------------------------------------------------------------ models

  function ParseStart(req: StartRequest, env: Env): (r: Validated<StartForm>)
    ensures r.Pass? <==>
      && req.sessionId.Id?
      && req.playerId.Some? && StrLike(req.playerId.value)
      && (Unset(req.deviceInfo) || StrLike(req.deviceInfo.value))
    ensures r.Pass? ==>
      && r.value.sessionId == req.sessionId.key
      && (req.playerId.value.Str? ==> r.value.playerId == req.playerId.value.s)
      && (r.value.deviceInfo.None? <==> Unset(req.deviceInfo))
  {
    var sessionId :- RequiredId(req.sessionId);
    var playerId :- RequiredStr(req.playerId, env);
    var deviceInfo :- OptionalStr(req.deviceInfo, env);
    Pass(StartForm(sessionId, playerId, deviceInfo))
  }

  function ParseEnd(req: EndRequest, env: Env): (r: Validated<EndForm>)
    ensures r.Pass? <==> req.sessionId.Id? && DateTimeOk(req.endTime, env)
    ensures r.Pass? ==>
      && r.value.sessionId == req.sessionId.key
      && (r.value.endTime.None? <==> Unset(req.endTime))
      && (!Unset(req.endTime) ==> r.value.endTime == env.parseDateTime(req.endTime.value))
  {
    var sessionId :- RequiredId(req.sessionId);
    var endTime :- OptionalDateTime(req.endTime, env);
    Pass(EndForm(sessionId, endTime))
  }

  function ParseEvent(req: EventRequest, env: Env): (r: Validated<EventForm>)
    ensures r.Pass? <==>
      && req.sessionId.Id?
      && req.eventType.Some? && StrLike(req.eventType.value)
      && req.eventName.Some? && StrLike(req.eventName.value)
      && (Unset(req.levelId) || StrLike(req.levelId.value))
      && FloatOk(req.positionX, env) && FloatOk(req.positionY, env) && FloatOk(req.positionZ, env)
      && (Unset(req.details) || req.details.value.Obj?)
      && DateTimeOk(req.timestamp, env)
    ensures r.Pass? ==>
      && r.value.sessionId == req.sessionId.key
      && (r.value.details.None? <==> Unset(req.details))
      && (r.value.details.Some? ==> req.details == Some(Obj(r.value.details.value)))
      && (r.value.timestamp.None? <==> Unset(req.timestamp))
  {
    var sessionId :- RequiredId(req.sessionId);
    var eventType :- RequiredStr(req.eventType, env);
    var eventName :- RequiredStr(req.eventName, env);
    var levelId :- OptionalStr(req.levelId, env);
    var positionX :- OptionalFloat(req.positionX, env);
    var positionY :- OptionalFloat(req.positionY, env);
    var positionZ :- OptionalFloat(req.positionZ, env);
    var details :- OptionalDict(req.details);
    var timestamp :- OptionalDateTime(req.timestamp, env);
    Pass(EventForm(sessionId, eventType, eventName, levelId, positionX, positionY, positionZ, details, timestamp))
  }

  function ParseMetric(req: MetricRequest, env: Env): (r: Validated<MetricForm>)
    ensures r.Pass? <==>
      && req.sessionId.Id?
      && req.metricName.Some? && StrLike(req.metricName.value)
      && req.metricValue.Some? && ToFloat(req.metricValue.value, env.parseFloat).Some?
      && (Unset(req.levelId) || StrLike(req.levelId.value))
      && DateTimeOk(req.timestamp, env)
    ensures r.Pass? ==>
      && r.value.sessionId == req.sessionId.key
      && Some(r.value.metricValue) == ToFloat(req.metricValue.value, env.parseFloat)
      && (r.value.timestamp.None? <==> Unset(req.timestamp))
  {
    var sessionId :- RequiredId(req.sessionId);
    var metricName :- RequiredStr(req.metricName, env);
    var metricValue :- RequiredFloat(req.metricValue, env);
    var levelId :- OptionalStr(req.levelId, env);
    var timestamp :- OptionalDateTime(req.timestamp, env);
    Pass(MetricForm(sessionId, metricName, metricValue, levelId, timestamp))
  }

  /** `List[EventCreate]`: every item validates, or the whole body is refused. */
  function ParseEvents(items: seq<EventRequest>, env: Env): (r: Validated<seq<EventForm>>)
    ensures r.Pass? <==> forall i :: 0 <= i < |items| ==> ParseEvent(items[i], env).Pass?
    ensures r.Pass? ==> |r.value| == |items|
    ensures r.Pass? ==> forall i :: 0 <= i < |items| ==> ParseEvent(items[i], env) == Pass(r.value[i])
  {
    match MapAll(items, item => ParseEvent(item, env).ToOption())
    case Some(forms) => Pass(forms)
    case None => Fail
  }

  /** `List[MetricCreate]`: every item validates, or the whole body is refused. */
  function ParseMetrics(items: seq<MetricRequest>, env: Env): (r: Validated<seq<MetricForm>>)
    ensures r.Pass? <==> forall i :: 0 <= i < |items| ==> ParseMetric(items[i], env).Pass?
    ensures r.Pass? ==> |r.value| == |items|
    ensures r.Pass? ==> forall i :: 0 <= i < |items| ==> ParseMetric(items[i], env) == Pass(r.value[i])
  {
    match MapAll(items, item => ParseMetric(item, env).ToOption())
    case Some(forms) => Pass(forms)
    case None => Fail
  }

  // ------------------------------------------------------------ round trips

  function StrField(s: Option<string>): Field {
    match s
    case Some(x) => Some(Str(x))
    case None => None
  }

  function NumField(x: Option<real>): Field {
    match x
    case Some(r) => Some(Num(r))
    case None => None
  }

  /** The request a client sends for a start form. */
  function StartRequestOf(f: StartForm): StartRequest {
    StartRequest(Id(f.sessionId), Some(Str(f.playerId)), StrField(f.deviceInfo))
  }

  /** The request a client sends for an end form; `stamp` is the encoding of
      the end time. */
  function EndRequestOf(f: EndForm, stamp: Value): EndRequest {
    EndRequest(Id(f.sessionId), if f.endTime.Some? then Some(stamp) else None)
  }

  function EventRequestOf(f: EventForm, stamp: Value): EventRequest {
    EventRequest(
      Id(f.sessionId), Some(Str(f.eventType)), Some(Str(f.eventName)), StrField(f.levelId),
      NumField(f.positionX), NumField(f.positionY), NumField(f.positionZ),
      if f.details.Some? then Some(Obj(f.details.value)) else None,
      if f.timestamp.Some? then Some(stamp) else None)
  }

  function MetricRequestOf(f: MetricForm, stamp: Value): MetricRequest {
    MetricRequest(
      Id(f.sessionId), Some(Str(f.metricName)), Some(Num(f.metricValue)), StrField(f.levelId),
      if f.timestamp.Some? then Some(stamp) else None)
  }

  /** Every start form is what its own request validates to. */
  lemma StartRoundTrip(f: StartForm, env: Env)
    ensures ParseStart(StartRequestOf(f), env) == Pass(f)
  {
  }

  /** An end form survives validation when its time is encoded in a form the
      datetime parser reads back. */
  lemma EndRoundTrip(f: EndForm, stamp: Value, env: Env)
    requires f.endTime.Some? ==> stamp != Null && env.parseDateTime(stamp) == f.endTime
    ensures ParseEnd(EndRequestOf(f, stamp), env) == Pass(f)
  {
  }

  lemma EventRoundTrip(f: EventForm, stamp: Value, env: Env)
    requires f.timestamp.Some? ==> stamp != Null && env.parseDateTime(stamp) == f.timestamp
    ensures ParseEvent(EventRequestOf(f, stamp), env) == Pass(f)
  {
  }

  lemma MetricRoundTrip(f: MetricForm, stamp: Value, env: Env)
    requires f.timestamp.Some? ==> stamp != Null && env.parseDateTime(stamp) == f.timestamp
    ensures ParseMetric(MetricRequestOf(f, stamp), env) == Pass(f)
  {
  }
}

=== FILE: service.dfy ===
/** The ingestion service as a state machine: a sequence of requests, each
    handled by one of the three implementations, applied to the store in
    order. */
module Service {
  import opened Wrappers
  import opened Json
  import opened Clock
  import opened Environment
  import opened Db
  import opened Api
  import FlaskApp
  import SimpleRoutes
  import TypedRoutes

  datatype Variant = Flask | Simple | Typed

  /** One request to one of the six endpoints. A batch call carries its
      batch key and the values of the body's other keys. */
  datatype Call =
    | StartCall(start: StartRequest)
    | EndCall(end: EndRequest)
    | EventCall(event: EventRequest)
    | EventsCall(events: Batch<EventRequest>, others: seq<Value>)
    | MetricCall(metric: MetricRequest)
    | MetricsCall(metrics: Batch<MetricRequest>, others: seq<Value>)

  /** A call together with what the server reads from outside it. */
  datatype Step = Step(call: Call, env: Env)

  function Handle(v: Variant, st: Store, c: Call, env: Env, how: Version): (o: Outcome)
    ensures Valid(st) ==> Valid(After(st, o))
  {
    match v
    case Flask =>
      (match c
       case StartCall(r) => FlaskApp.StartSession(st, r, env)
       case EndCall(r) => FlaskApp.EndSession(st, r, env, how)
       case EventCall(r) => FlaskApp.CreateEvent(st, r, env)
       case EventsCall(r, _) => FlaskApp.CreateEventsBatch(st, r, env)
       case MetricCall(r) => FlaskApp.CreateMetric(st, r, env)
       case MetricsCall(r, _) => FlaskApp.CreateMetricsBatch(st, r, env))
    case Simple =>
      (match c
       case StartCall(r) => SimpleRoutes.StartSession(st, r, env)
       case EndCall(r) => SimpleRoutes.EndSession(st, r, env, how)
       case EventCall(r) => SimpleRoutes.CreateEvent(st, r, env)
       case EventsCall(r, others) => SimpleRoutes.CreateEventsBatch(st, r, others, env)
       case MetricCall(r) => SimpleRoutes.CreateMetric(st, r, env)
       case MetricsCall(r, others) => SimpleRoutes.CreateMetricsBatch(st, r, others, env))
    case Typed =>
      (match c
       case StartCall(r) => TypedRoutes.StartSession(st, r, env)
       case EndCall(r) => TypedRoutes.EndSession(st, r, env, how)
       case EventCall(r) => TypedRoutes.CreateEvent(st, r, env, how)
       case EventsCall(r, _) => TypedRoutes.CreateEventsBatch(st, r, env)
       case MetricCall(r) => TypedRoutes.CreateMetric(st, r, env)
       case MetricsCall(r, _) => TypedRoutes.CreateMetricsBatch(st, r, env))
  }

  /** The store after the steps, each handled in turn; a rejected step
      leaves the store as it was. */
  function Run(v: Variant, st: Store, steps: seq<Step>, how: Version): Store
    decreases |steps|
  {
    if steps == [] then st
    else Run(v, After(st, Handle(v, st, steps[0].call, steps[0].env, how)), steps[1..], how)
  }

  /** Whatever the requests, every store reached from the empty database has
      unique session keys, durations that agree with their instants, and no
      event or metric pointing at a session that does not exist. */
  lemma {:induction false} RunValid(v: Variant, st: Store, steps: seq<Step>, how: Version)
    requires Valid(st)
    ensures Valid(Run(v, st, steps, how))
    decreases |steps|
  {
    if steps != [] {
      var st' := After(st, Handle(v, st, steps[0].call, steps[0].env, how));
      RunValid(v, st', steps[1..], how);
    }
  }

  lemma ReachableValid(v: Variant, steps: seq<Step>, how: Version)
    ensures Valid(Run(v, Empty, steps, how))
  {
    EmptyIsValid();
    RunValid(v, Empty, steps, how);
  }

  /** Steps that are all rejected change nothing. */
  lemma {:induction false} RejectedRunUnchanged(v: Variant, st: Store, steps: seq<Step>, how: Version)
    requires forall i :: 0 <= i < |steps| ==> Handle(v, st, steps[i].call, steps[i].env, how).Rejected?
    ensures Run(v, st, steps, how) == st
    decreases |steps|
  {
    if steps != [] {
      assert Handle(v, st, steps[0].call, steps[0].env, how).Rejected?;
      assert forall i :: 0 <= i < |steps[1..]| ==> steps[1..][i] == steps[i + 1];
      RejectedRunUnchanged(v, st, steps[1..], how);
    }
  }
}

=== FILE: simple_routes.dfy ===
/** The dict-based FastAPI router that the application mounts: SQLAlchemy
    lookups, no required-field checks, lenient timestamps, and batches that
    insert every item once all referenced sessions are found. */
module SimpleRoutes {
  import opened Wrappers
  import opened Json
  import opened Clock
  import opened Environment
  import opened Db
  import opened Api

  // ---------------------------------------------------------------- sessions

  /** start_session: every field is read with `.get`, so absent keys become
      None (a None session_id is inserted as NULL). A repeated session_id
      fails the commit, which is rolled back and answered with 400. */
  function StartSession(st: Store, req: StartRequest, env: Env): (o: Outcome)
    ensures o.Rejected? <==> st.FoundByEquals(req.sessionId.Get())
    ensures o.Rejected? ==> o == Rejected(BAD_REQUEST, Conflict)
    ensures o.Accepted? ==>
      && o.code == CREATED
      && o.body.SessionBody?
      && o.body.sessionId == req.sessionId.Get()
      && o.body.session == Started(Get(req.playerId), Get(req.deviceInfo), env.Now())
      && AddedSession(st, o.store, o.body.sessionId, o.body.session)
    ensures Valid(st) ==> Valid(After(st, o))
  {
    var key := req.sessionId.Get();
    var s := Started(Get(req.playerId), Get(req.deviceInfo), env.Now());
    if st.FoundByEquals(key) then Rejected(BAD_REQUEST, Conflict)
    else
      AddSessionValid(st, key, s);
      Accepted(CREATED, st.AddSession(key, s), SessionBody(key, s))
  }

  /** The lenient timestamp rule: a truthy string is parsed after the 'Z'
      rewrite; a parse failure, a falsy value, and a truthy non-string (whose
      `.replace` raises inside the same bare `except`) all give the current time. */
  function LenientTime(v: Value, env: Env): (t: DateTime)
    ensures t == env.Now() || (v.Str? && env.fromIso(ReplaceZ(v.s)) == Some(t))
    ensures v.Str? && v.s != "" && env.fromIso(ReplaceZ(v.s)).Some? ==> t == env.fromIso(ReplaceZ(v.s)).value
    ensures !v.Str? ==> t == env.Now()
    ensures !Truthy(v) ==> t == env.Now()
  {
    if Truthy(v) && v.Str? then ParseZulu(v.s, env) else env.Now()
  }

  /** end_session: the session is looked up with `== session_id`, so a missing
      or null id matches the first NULL-keyed session; 404 when nothing
      matches. `duration_seconds = int(end - start)`; a naive/aware
      subtraction raises, is not caught (500) and nothing is committed. */
  function EndSession(st: Store, req: EndRequest, env: Env, how: Version): (o: Outcome)
    ensures !st.FoundByOrm(req.sessionId.Get()) ==> o == Rejected(NOT_FOUND, SessionNotFound)
    ensures st.FoundByOrm(req.sessionId.Get()) ==>
      (o.Rejected? <==> how.AsWritten? && st.Fetch(req.sessionId.Get()).startTime.aware != LenientTime(Get(req.endTime), env).aware)
    ensures o.Rejected? && st.FoundByOrm(req.sessionId.Get()) ==> o == Rejected(SERVER_ERROR, OffsetMismatch)
    ensures o.Accepted? ==>
      && o.code == OK
      && st.FoundByOrm(req.sessionId.Get())
      && var key := req.sessionId.Get();
      var before := st.Fetch(key);
      var end := LenientTime(Get(req.endTime), env);
      && o.store.FoundByOrm(key)
      && o.store.Fetch(key) == Ended(before, end, TruncSeconds(end.micros - before.startTime.micros))
      && o.body == SessionBody(key, o.store.Fetch(key))
      && OnlySessionChanged(st, o.store, key)
    ensures Valid(st) ==> Valid(After(st, o))
  {
    var key := req.sessionId.Get();
    if !st.FoundByOrm(key) then Rejected(NOT_FOUND, SessionNotFound)
    else
      var s := st.Fetch(key);
      var end := LenientTime(Get(req.endTime), env);
      match Elapsed(how, s.startTime, end)
      case None => Rejected(SERVER_ERROR, OffsetMismatch)
      case Some(d) =>
        var s' := Ended(s, end, d);
        PutSessionValid(st, key, s');
        Accepted(OK, st.PutSession(key, s'), SessionBody(key, s'))
  }

  // ------------------------------------------------------------------ events

  /** The row create_event and the batch loop build for one item. */
  function EventDraft(r: EventRequest, env: Env): Draft<EventData> {
    Draft(r.sessionId.Get(), EventData(
      Get(r.eventType), Get(r.eventName), At(LenientTime(Get(r.timestamp), env)), Get(r.levelId),
      Get(r.positionX), Get(r.positionY), Get(r.positionZ), JsonDetails(Get(r.details), env)))
  }

  /** create_event: 404 unless the ORM finds the session; no other check. */
  function CreateEvent(st: Store, req: EventRequest, env: Env): (o: Outcome)
    ensures o.Rejected? <==> !st.FoundByOrm(req.sessionId.Get())
    ensures o.Rejected? ==> o == Rejected(NOT_FOUND, SessionNotFound)
    ensures o.Accepted? ==>
      && o.code == CREATED
      && o.body.EventBody?
      && AppendedOne(st.events, o.store.events, o.body.event)
      && OnlyEventsChanged(st, o.store)
      && o.body.event.sessionId == req.sessionId.Get()
      && o.body.event.data == EventDraft(req, env).data
      && (o.body.event.data.details.Some? <==> Truthy(Get(req.details)))
      && (!Truthy(Get(req.timestamp)) ==> o.body.event.data.timestamp == At(env.Now()))
    ensures Valid(st) ==> Valid(After(st, o))
  {
    if !st.FoundByOrm(req.sessionId.Get()) then Rejected(NOT_FOUND, SessionNotFound)
    else
      var d := EventDraft(req, env);
      InsertIsInsertAll(st.events, d);
      AddEventsValid(st, [d]);
      Accepted(CREATED, st.(events := st.events.Insert(d)), EventBody(Row(st.events.nextId, d.sessionId, d.data)))
  }

  /** `session_ids - found_sessions`: the requested ids that
      `session_id IN (...)` does not find; a None is never found. */
  function MissingIds(st: Store, ids: seq<IdField>): (missing: set<Option<string>>)
    ensures forall x :: x in missing <==> x in Requested(ids) && !st.FoundByEquals(x)
    ensures missing == {} <==> forall i :: 0 <= i < |ids| ==> st.FoundByEquals(ids[i].Get())
  {
    var requested := Requested(ids);
    var found := set k | k in st.sessions && Some(k) in requested :: Some(k);
    var missing := requested - found;
    assert forall i :: 0 <= i < |ids| && !st.FoundByEquals(ids[i].Get()) ==> ids[i].Get() in missing;
    missing
  }

  /** The rows the insert loop builds, one per item. */
  function EventDrafts(items: seq<EventRequest>, env: Env): seq<Draft<EventData>> {
    MapSeq(items, (r: EventRequest) => EventDraft(r, env))
  }

  /** The handler once the body has been read as a list of items. */
  function EventsBatch(st: Store, items: seq<EventRequest>, env: Env): (o: Outcome)
    ensures o.Rejected? <==> exists i :: 0 <= i < |items| && !st.FoundByEquals(items[i].sessionId.Get())
    ensures o.Rejected? ==>
      && o.code == NOT_FOUND
      && o.failure.SessionsNotFound?
      && (forall x :: x in o.failure.ids <==> x in Requested(EventIds(items)) && !st.FoundByEquals(x))
    ensures o.Accepted? ==>
      && o.code == CREATED
      && o.body == CreatedCount(|items|)
      && OnlyEventsChanged(st, o.store)
      && AppendedAll(st.events, o.store.events, EventDrafts(items, env))
    ensures Valid(st) ==> Valid(After(st, o))
  {
    var missing := MissingIds(st, EventIds(items));
    if missing != {} then Rejected(NOT_FOUND, SessionsNotFound(missing))
    else
      var drafts := EventDrafts(items, env);
      assert forall i :: 0 <= i < |drafts| ==> st.FoundByEquals(drafts[i].sessionId);
      AddEventsValid(st, drafts);
      Accepted(CREATED, st.AddEvents(drafts), CreatedCount(|items|))
  }

  /** Whether a batch body has the declared type `Dict[str, List[Dict[str, Any]]]`:
      the batch key, when present, and every other key of the body (`others`
      holds their values) each hold a list of values pydantic reads as dicts.
      FastAPI refuses any other body with 422 before the handler runs. */
  predicate WellTyped<T>(req: Batch<T>, others: seq<Value>) {
    !req.NotList? && forall i :: 0 <= i < |others| ==> ListOfDicts(others[i])
  }

  /** create_events_batch: a body that is not a dict of lists of dicts
      fails request validation (422); an absent `events` key is an empty list.
      404 listing every missing id when some referenced session is not
      stored, with no writes; otherwise every item is inserted, with no
      per-item check, and the count is the number of items. */
  function CreateEventsBatch(st: Store, req: Batch<EventRequest>, others: seq<Value>, env: Env): (o: Outcome)
    ensures req.NotList? ==> o == Rejected(UNPROCESSABLE, Invalid)
    ensures (exists i :: 0 <= i < |others| && !ListOfDicts(others[i])) ==> o == Rejected(UNPROCESSABLE, Invalid)
    ensures WellTyped(req, others) && req.Missing? ==> o == Accepted(CREATED, st, CreatedCount(0))
    ensures WellTyped(req, others) && req.Items? ==> o == EventsBatch(st, req.items, env)
    ensures Valid(st) ==> Valid(After(st, o))
  {
    if !WellTyped(req, others) then Rejected(UNPROCESSABLE, Invalid)
    else
      match req
      case Missing => EventsBatch(st, [], env)
      case Items(items) => EventsBatch(st, items, env)
  }

  /** Other keys holding lists of what `dict()` coerces (an empty list, an
      empty string, a list of pairs) pass validation and leave the batch to
      the handler; a list holding a number does not. */
  lemma CoercedKeysAccepted(st: Store, items: seq<EventRequest>, env: Env)
    ensures CreateEventsBatch(st, Items(items), [Arr([Arr([]), Str(""), Arr([Arr([Str("k"), Num(1.0)])])])], env)
         == EventsBatch(st, items, env)
    ensures CreateEventsBatch(st, Items(items), [Arr([Num(1.0)])], env) == Rejected(UNPROCESSABLE, Invalid)
  {
    var pairs := Arr([Arr([Str("k"), Num(1.0)])]);
    assert PairLike(pairs.items[0]);
    assert DictLike(pairs);
    assert ListOfDicts(Arr([Arr([]), Str(""), pairs]));
    var bad: seq<Value> := [Arr([Num(1.0)])];
    assert !ListOfDicts(bad[0]) by { assert !DictLike(bad[0].items[0]); }
  }

  // ----------------------------------------------------------------- metrics

  /** `float(data.get('metric_value', 0))`: an absent key is 0.0. */
  function MetricValue(r: MetricRequest, env: Env): (x: Option<real>)
    ensures r.metricValue.None? ==> x == Some(0.0)
    ensures r.metricValue.Some? ==> x == ToFloat(r.metricValue.value, env.parseFloat)
  {
    ToFloat(r.metricValue.GetOr(Num(0.0)), env.parseFloat)
  }

  function MetricDraft(r: MetricRequest, value: real, env: Env): Draft<MetricData> {
    Draft(r.sessionId.Get(), MetricData(Get(r.metricName), value, At(LenientTime(Get(r.timestamp), env)), Get(r.levelId)))
  }

  /** create_metric: 404 unless the ORM finds the session; then a metric_value
      that float() refuses (null included) raises uncaught (500), nothing
      committed; otherwise one new row. */
  function CreateMetric(st: Store, req: MetricRequest, env: Env): (o: Outcome)
    ensures !st.FoundByOrm(req.sessionId.Get()) ==> o == Rejected(NOT_FOUND, SessionNotFound)
    ensures st.FoundByOrm(req.sessionId.Get()) && MetricValue(req, env).None? ==> o == Rejected(SERVER_ERROR, NotANumber)
    ensures o.Accepted? <==> st.FoundByOrm(req.sessionId.Get()) && MetricValue(req, env).Some?
    ensures o.Accepted? ==>
      && o.code == CREATED
      && o.body.MetricBody?
      && AppendedOne(st.metrics, o.store.metrics, o.body.metric)
      && OnlyMetricsChanged(st, o.store)
      && o.body.metric.sessionId == req.sessionId.Get()
      && Some(o.body.metric.data.metricValue) == MetricValue(req, env)
      && (req.metricValue.None? ==> o.body.metric.data.metricValue == 0.0)
      && o.body.metric.data == MetricDraft(req, MetricValue(req, env).value, env).data
      && o.body.metric.data.metricName == Get(req.metricName)
      && o.body.metric.data.levelId == Get(req.levelId)
      && (!Truthy(Get(req.timestamp)) ==> o.body.metric.data.timestamp == At(env.Now()))
      && (Get(req.timestamp).Str? && env.fromIso(ReplaceZ(Get(req.timestamp).s)).None? ==> o.body.metric.data.timestamp == At(env.Now()))
    ensures Valid(st) ==> Valid(After(st, o))
  {
    if !st.FoundByOrm(req.sessionId.Get()) then Rejected(NOT_FOUND, SessionNotFound)
    else
      match MetricValue(req, env)
      case None => Rejected(SERVER_ERROR, NotANumber)
      case Some(x) =>
        var d := MetricDraft(req, x, env);
        InsertIsInsertAll(st.metrics, d);
        AddMetricsValid(st, [d]);
        Accepted(CREATED, st.(metrics := st.metrics.Insert(d)), MetricBody(Row(st.metrics.nextId, d.sessionId, d.data)))
  }

  function MetricItem(r: MetricRequest, env: Env): Option<Draft<MetricData>> {
    match MetricValue(r, env)
    case None => None
    case Some(x) => Some(MetricDraft(r, x, env))
  }

  /** The rows the insert loop builds, one per item, when every
      metric_value converts. */
  function MetricDrafts(items: seq<MetricRequest>, env: Env): (ds: Option<seq<Draft<MetricData>>>)
    ensures ds.Some? <==> forall i :: 0 <= i < |items| ==> MetricValue(items[i], env).Some?
    ensures ds.Some? ==> |ds.value| == |items|
    ensures ds.Some? ==> forall i :: 0 <= i < |items| ==>
      ds.value[i] == MetricDraft(items[i], MetricValue(items[i], env).value, env)
  {
    var ds := MapAll(items, r => MetricItem(r, env));
    assert ds.Some? ==> forall i :: 0 <= i < |items| ==> MetricItem(items[i], env) == Some(ds.value[i]);
    assert ds.None? ==> exists i :: 0 <= i < |items| && MetricItem(items[i], env).None?;
    ds
  }

  /** The handler once the body has been read as a list of items. */
  function MetricsBatch(st: Store, items: seq<MetricRequest>, env: Env): (o: Outcome)
    ensures o.Rejected? <==>
      || (exists i :: 0 <= i < |items| && !st.FoundByEquals(items[i].sessionId.Get()))
      || (exists i :: 0 <= i < |items| && MetricValue(items[i], env).None?)
    ensures (exists i :: 0 <= i < |items| && !st.FoundByEquals(items[i].sessionId.Get())) ==>
      && o.Rejected? && o.code == NOT_FOUND
      && o.failure.SessionsNotFound?
      && (forall x :: x in o.failure.ids <==> x in Requested(MetricIds(items)) && !st.FoundByEquals(x))
    ensures o.Rejected? && o.code != NOT_FOUND ==> o == Rejected(SERVER_ERROR, NotANumber)
    ensures (forall i :: 0 <= i < |items| ==> st.FoundByEquals(items[i].sessionId.Get())) && o.Rejected? ==>
      o == Rejected(SERVER_ERROR, NotANumber)
    ensures o.Accepted? ==>
      && o.code == CREATED
      && o.body == CreatedCount(|items|)
      && OnlyMetricsChanged(st, o.store)
      && AppendedAll(st.metrics, o.store.metrics, MetricDrafts(items, env).value)
    ensures Valid(st) ==> Valid(After(st, o))
  {
    var missing := MissingIds(st, MetricIds(items));
    if missing != {} then Rejected(NOT_FOUND, SessionsNotFound(missing))
    else
      match MetricDrafts(items, env)
      case None => Rejected(SERVER_ERROR, NotANumber)
      case Some(drafts) =>
        assert forall i :: 0 <= i < |drafts| ==> st.FoundByEquals(drafts[i].sessionId);
        AddMetricsValid(st, drafts);
        Accepted(CREATED, st.AddMetrics(drafts), CreatedCount(|items|))
  }

  /** create_metrics_batch: as the events batch; an item whose metric_value
      float() refuses raises in the insert loop before the commit (500), so
      no item of the batch is stored. */
  function CreateMetricsBatch(st: Store, req: Batch<MetricRequest>, others: seq<Value>, env: Env): (o: Outcome)
    ensures req.NotList? ==> o == Rejected(UNPROCESSABLE, Invalid)
    ensures (exists i :: 0 <= i < |others| && !ListOfDicts(others[i])) ==> o == Rejected(UNPROCESSABLE, Invalid)
    ensures WellTyped(req, others) && req.Missing? ==> o == Accepted(CREATED, st, CreatedCount(0))
    ensures WellTyped(req, others) && req.Items? ==> o == MetricsBatch(st, req.items, env)
    ensures Valid(st) ==> Valid(After(st, o))
  {
    if !WellTyped(req, others) then Rejected(UNPROCESSABLE, Invalid)
    else
      match req
      case Missing => MetricsBatch(st, [], env)
      case Items(items) => MetricsBatch(st, items, env)
  }
}

=== FILE: typed_routes.dfy ===
/** The schema-validated FastAPI router: each handler first validates its
    body against the pydantic models (422 on any violation), then works on
    the typed form with SQLAlchemy lookups. */
module TypedRoutes {
  import opened Wrappers
  import opened Json
  import opened Clock
  import opened Environment
  import opened Db
  import opened Api
  import opened Schemas

  /** How an optional string column is stored: the string, or NULL. */
  function StrOrNull(s: Option<string>): Value {
    match s
    case Some(x) => Str(x)
    case None => Null
  }

  /** How an optional float column is stored: the number, or NULL. */
  function NumOrNull(x: Option<real>): Value {
    match x
    case Some(r) => Num(r)
    case None => Null
  }

  // ---------------------------------------------------------------- sessions

  /** start_session on a validated body: a new row started now; a repeated
      session_id fails the commit, which is rolled back and answered with 400. */
  function Start(st: Store, f: StartForm, env: Env): (o: Outcome)
    ensures o.Rejected? <==> f.sessionId in st.sessions
    ensures o.Rejected? ==> o == Rejected(BAD_REQUEST, Conflict)
    ensures o.Accepted? ==>
      && o.code == CREATED
      && f.sessionId in o.store.sessions
      && o.body == SessionBody(Some(f.sessionId), o.store.sessions[f.sessionId])
      && o.store.sessions[f.sessionId] == Started(Str(f.playerId), StrOrNull(f.deviceInfo), env.Now())
      && AddedSession(st, o.store, Some(f.sessionId), o.store.sessions[f.sessionId])
    ensures Valid(st) ==> Valid(After(st, o))
  {
    var key := Some(f.sessionId);
    var s := Started(Str(f.playerId), StrOrNull(f.deviceInfo), env.Now());
    if st.FoundByEquals(key) then Rejected(BAD_REQUEST, Conflict)
    else
      AddSessionValid(st, key, s);
      Accepted(CREATED, st.AddSession(key, s), SessionBody(key, s))
  }

  function StartSession(st: Store, req: StartRequest, env: Env): (o: Outcome)
    ensures ParseStart(req, env).Fail? ==> o == Rejected(UNPROCESSABLE, Invalid)
    ensures ParseStart(req, env).Pass? ==> o == Start(st, ParseStart(req, env).value, env)
    ensures o.Accepted? <==> ParseStart(req, env).Pass? && req.sessionId.key !in st.sessions
    ensures o.Accepted? && req.playerId.value.Str? ==> o.body.session.playerId == req.playerId.value
    ensures Valid(st) ==> Valid(After(st, o))
  {
    match ParseStart(req, env)
    case Fail => Rejected(UNPROCESSABLE, Invalid)
    case Pass(f) => Start(st, f, env)
  }

  /** Whether a session row passes the route's declared response model,
      SessionResponse: `player_id: str` refuses NULL, and `device_info:
      Optional[str]` takes NULL or a string. Only this router's own start
      always stores a string player_id; the mounted router stores NULL for an
      absent one, and Flask stores an explicit null. */
  predicate FitsSessionResponse(s: Session) {
    StrLike(s.playerId) && (s.deviceInfo == Null || StrLike(s.deviceInfo))
  }

  /** end_session on a validated body: 404 for an unknown session; the end
      time is the one given or now; `duration_seconds = int(end - start)`,
      and a naive/aware subtraction raises uncaught (500), nothing committed.
      After the commit FastAPI validates the row against SessionResponse; a
      row that fails it is stored all the same, and the client gets 500. */
  function End(st: Store, f: EndForm, env: Env, how: Version): (o: Outcome)
    ensures f.sessionId !in st.sessions ==> o == Rejected(NOT_FOUND, SessionNotFound)
    ensures f.sessionId in st.sessions ==>
      (o.Rejected? <==> how.AsWritten? && st.sessions[f.sessionId].startTime.aware != f.endTime.GetOr(env.Now()).aware)
    ensures o.Rejected? && f.sessionId in st.sessions ==> o == Rejected(SERVER_ERROR, OffsetMismatch)
    ensures o.Accepted? ==>
      && f.sessionId in st.sessions
      && var before := st.sessions[f.sessionId];
      var end := f.endTime.GetOr(env.Now());
      && o.store.sessions == st.sessions[f.sessionId := Ended(before, end, TruncSeconds(end.micros - before.startTime.micros))]
      && OnlySessionChanged(st, o.store, Some(f.sessionId))
      && (o.code == OK <==> FitsSessionResponse(before))
      && (o.code == OK ==> o.body == SessionBody(Some(f.sessionId), o.store.sessions[f.sessionId]))
      && (o.code != OK ==> o.code == SERVER_ERROR && o.body == ResponseRefused)
    ensures Valid(st) ==> Valid(After(st, o))
  {
    var key := Some(f.sessionId);
    if !st.FoundByOrm(key) then Rejected(NOT_FOUND, SessionNotFound)
    else
      var s := st.Fetch(key);
      var end := f.endTime.GetOr(env.Now());
      match Elapsed(how, s.startTime, end)
      case None => Rejected(SERVER_ERROR, OffsetMismatch)
      case Some(d) =>
        var s' := Ended(s, end, d);
        PutSessionValid(st, key, s');
        if FitsSessionResponse(s') then Accepted(OK, st.PutSession(key, s'), SessionBody(key, s'))
        else Accepted(SERVER_ERROR, st.PutSession(key, s'), ResponseRefused)
  }

  function EndSession(st: Store, req: EndRequest, env: Env, how: Version): (o: Outcome)
    ensures ParseEnd(req, env).Fail? ==> o == Rejected(UNPROCESSABLE, Invalid)
    ensures ParseEnd(req, env).Pass? ==> o == End(st, ParseEnd(req, env).value, env, how)
    ensures o.code == UNPROCESSABLE <==> ParseEnd(req, env).Fail?
    ensures o.code == NOT_FOUND <==> ParseEnd(req, env).Pass? && req.sessionId.key !in st.sessions
    ensures o.Accepted? ==>
      && req.sessionId.key in st.sessions
      && (o.code == OK <==> FitsSessionResponse(st.sessions[req.sessionId.key]))
    ensures Valid(st) ==> Valid(After(st, o))
  {
    match ParseEnd(req, env)
    case Fail => Rejected(UNPROCESSABLE, Invalid)
    case Pass(f) => End(st, f, env, how)
  }

  // ------------------------------------------------------------------ events

  /** `str(event.details) if event.details else None`. */
  function Details(d: Option<map<string, Value>>, env: Env): (r: Option<string>)
    ensures r.Some? <==> d.Some? && d.value != map[]
    ensures r.Some? ==> r.value == env.pyStr(Obj(d.value))
  {
    match d
    case Some(m) => ReprDetails(Obj(m), env)
    case None => None
  }

  /** The row create_event and the batch loop build for one validated item. */
  function EventDraft(f: EventForm, env: Env): Draft<EventData> {
    Draft(Some(f.sessionId), EventData(
      Str(f.eventType), Str(f.eventName), At(f.timestamp.GetOr(env.Now())), StrOrNull(f.levelId),
      NumOrNull(f.positionX), NumOrNull(f.positionY), NumOrNull(f.positionZ), Details(f.details, env)))
  }

  /** Whether a stored event row passes the route's declared response model,
      EventResponse. Its `details` field is `Optional[Dict[str, Any]]`, and
      the text `str(details)` the route stores is no dict, so only a row
      without details passes. */
  predicate FitsEventResponse(row: Row<EventData>) {
    row.data.details.None?
  }

  /** create_event on a validated body: 404 for an unknown session, otherwise
      one new row, committed. As written, FastAPI then validates the row
      against EventResponse; a row with details fails, and the client gets
      500 although the row is stored. Corrected, the row is returned with 201. */
  function AddEvent(st: Store, f: EventForm, env: Env, how: Version): (o: Outcome)
    ensures o.Rejected? <==> f.sessionId !in st.sessions
    ensures o.Rejected? ==> o == Rejected(NOT_FOUND, SessionNotFound)
    ensures o.Accepted? ==>
      var row := Row(st.events.nextId, Some(f.sessionId), EventDraft(f, env).data);
      && AppendedOne(st.events, o.store.events, row)
      && OnlyEventsChanged(st, o.store)
      && row.data.timestamp == At(f.timestamp.GetOr(env.Now()))
      && (row.data.details.Some? <==> f.details.Some? && f.details.value != map[])
      && (o.code == CREATED <==> how.Corrected? || row.data.details.None?)
      && (o.code == CREATED ==> o.body == EventBody(row))
      && (o.code != CREATED ==> o.code == SERVER_ERROR && o.body == ResponseRefused)
    ensures Valid(st) ==> Valid(After(st, o))
  {
    if !st.FoundByOrm(Some(f.sessionId)) then Rejected(NOT_FOUND, SessionNotFound)
    else
      var d := EventDraft(f, env);
      var row := Row(st.events.nextId, d.sessionId, d.data);
      InsertIsInsertAll(st.events, d);
      AddEventsValid(st, [d]);
      if how.AsWritten? && !FitsEventResponse(row) then Accepted(SERVER_ERROR, st.(events := st.events.Insert(d)), ResponseRefused)
      else Accepted(CREATED, st.(events := st.events.Insert(d)), EventBody(row))
  }

  function CreateEvent(st: Store, req: EventRequest, env: Env, how: Version): (o: Outcome)
    ensures ParseEvent(req, env).Fail? ==> o == Rejected(UNPROCESSABLE, Invalid)
    ensures ParseEvent(req, env).Pass? ==> o == AddEvent(st, ParseEvent(req, env).value, env, how)
    ensures o.Accepted? <==> ParseEvent(req, env).Pass? && req.sessionId.key in st.sessions
    ensures o.Accepted? ==>
      && |o.store.events.rows| == |st.events.rows| + 1
      && o.store.events.rows[|st.events.rows|].sessionId == Some(req.sessionId.key)
    ensures o.Accepted? ==> (o.code == SERVER_ERROR <==> how.AsWritten? && Truthy(Get(req.details)))
    ensures Valid(st) ==> Valid(After(st, o))
  {
    match ParseEvent(req, env)
    case Fail => Rejected(UNPROCESSABLE, Invalid)
    case Pass(f) => AddEvent(st, f, env, how)
  }

  /** `session_ids - found_sessions` over validated items. */
  function Unknown(st: Store, ids: seq<string>): (missing: set<Option<string>>)
    ensures forall i :: 0 <= i < |ids| && ids[i] !in st.sessions ==> Some(ids[i]) in missing
    ensures forall x :: x in missing ==> x.Some? && x.value !in st.sessions && x.value in ids
    ensures missing == {} <==> forall i :: 0 <= i < |ids| ==> ids[i] in st.sessions
  {
    var missing := set i | 0 <= i < |ids| && ids[i] !in st.sessions :: Some(ids[i]);
    assert forall i :: 0 <= i < |ids| && ids[i] !in st.sessions ==> Some(ids[i]) in missing;
    missing
  }

  function EventKeys(forms: seq<EventForm>): seq<string> {
    MapSeq(forms, (f: EventForm) => f.sessionId)
  }

  function EventDrafts(forms: seq<EventForm>, env: Env): seq<Draft<EventData>> {
    MapSeq(forms, (f: EventForm) => EventDraft(f, env))
  }

  /** create_events_batch on validated items: 404 listing every unknown
      session with no writes; otherwise every item is inserted in order. */
  function AddEvents(st: Store, forms: seq<EventForm>, env: Env): (o: Outcome)
    ensures o.Rejected? <==> exists i :: 0 <= i < |forms| && forms[i].sessionId !in st.sessions
    ensures o.Rejected? ==>
      && o.code == NOT_FOUND
      && o.failure.SessionsNotFound?
      && o.failure.ids == Unknown(st, EventKeys(forms))
    ensures o.Accepted? ==>
      && o.code == CREATED
      && o.body == CreatedCount(|forms|)
      && OnlyEventsChanged(st, o.store)
      && AppendedAll(st.events, o.store.events, EventDrafts(forms, env))
    ensures Valid(st) ==> Valid(After(st, o))
  {
    var missing := Unknown(st, EventKeys(forms));
    if missing != {} then Rejected(NOT_FOUND, SessionsNotFound(missing))
    else
      var drafts := EventDrafts(forms, env);
      assert forall i :: 0 <= i < |drafts| ==> st.FoundByOrm(drafts[i].sessionId);
      AddEventsValid(st, drafts);
      Accepted(CREATED, st.AddEvents(drafts), CreatedCount(|forms|))
  }

  /** The `events` key is required and every item must validate (422). */
  function CreateEventsBatch(st: Store, req: Batch<EventRequest>, env: Env): (o: Outcome)
    ensures !req.Items? ==> o == Rejected(UNPROCESSABLE, Invalid)
    ensures req.Items? && ParseEvents(req.items, env).Fail? ==> o == Rejected(UNPROCESSABLE, Invalid)
    ensures req.Items? && ParseEvents(req.items, env).Pass? ==> o == AddEvents(st, ParseEvents(req.items, env).value, env)
    ensures o.Accepted? <==>
      && req.Items?
      && forall i :: 0 <= i < |req.items| ==> ParseEvent(req.items[i], env).Pass? && req.items[i].sessionId.key in st.sessions
    ensures o.Accepted? ==> o.body == CreatedCount(|req.items|) && |o.store.events.rows| == |st.events.rows| + |req.items|
    ensures Valid(st) ==> Valid(After(st, o))
  {
    match req
    case Items(items) =>
      (match ParseEvents(items, env)
       case Fail => Rejected(UNPROCESSABLE, Invalid)
       case Pass(forms) => AddEvents(st, forms, env))
    case _ => Rejected(UNPROCESSABLE, Invalid)
  }

  // ----------------------------------------------------------------- metrics

  function MetricDraft(f: MetricForm, env: Env): Draft<MetricData> {
    Draft(Some(f.sessionId), MetricData(Str(f.metricName), f.metricValue, At(f.timestamp.GetOr(env.Now())), StrOrNull(f.levelId)))
  }

  /** create_metric on a validated body: 404 for an unknown session,
      otherwise one new row. */
  function AddMetric(st: Store, f: MetricForm, env: Env): (o: Outcome)
    ensures o.Rejected? <==> f.sessionId !in st.sessions
    ensures o.Rejected? ==> o == Rejected(NOT_FOUND, SessionNotFound)
    ensures o.Accepted? ==>
      && o.code == CREATED
      && o.body.MetricBody?
      && AppendedOne(st.metrics, o.store.metrics, o.body.metric)
      && OnlyMetricsChanged(st, o.store)
      && o.body.metric.sessionId == Some(f.sessionId)
      && o.body.metric.data.metricValue == f.metricValue
      && o.body.metric.data.timestamp == At(f.timestamp.GetOr(env.Now()))
      && o.body.metric.data == MetricDraft(f, env).data
      && o.body.metric.data.metricName == Str(f.metricName)
      && o.body.metric.data.levelId == StrOrNull(f.levelId)
    ensures Valid(st) ==> Valid(After(st, o))
  {
    if !st.FoundByOrm(Some(f.sessionId)) then Rejected(NOT_FOUND, SessionNotFound)
    else
      var d := MetricDraft(f, env);
      InsertIsInsertAll(st.metrics, d);
      AddMetricsValid(st, [d]);
      Accepted(CREATED, st.(metrics := st.metrics.Insert(d)), MetricBody(Row(st.metrics.nextId, d.sessionId, d.data)))
  }

  function CreateMetric(st: Store, req: MetricRequest, env: Env): (o: Outcome)
    ensures ParseMetric(req, env).Fail? ==> o == Rejected(UNPROCESSABLE, Invalid)
    ensures ParseMetric(req, env).Pass? ==> o == AddMetric(st, ParseMetric(req, env).value, env)
    ensures o.Accepted? <==> ParseMetric(req, env).Pass? && req.sessionId.key in st.sessions
    ensures o.Accepted? ==> Some(o.body.metric.data.metricValue) == ToFloat(req.metricValue.value, env.parseFloat)
    ensures Valid(st) ==> Valid(After(st, o))
  {
    match ParseMetric(req, env)
    case Fail => Rejected(UNPROCESSABLE, Invalid)
    case Pass(f) => AddMetric(st, f, env)
  }

  function MetricKeys(forms: seq<MetricForm>): seq<string> {
    MapSeq(forms, (f: MetricForm) => f.sessionId)
  }

  function MetricDrafts(forms: seq<MetricForm>, env: Env): seq<Draft<MetricData>> {
    MapSeq(forms, (f: MetricForm) => MetricDraft(f, env))
  }

  /** create_metrics_batch on validated items. */
  function AddMetrics(st: Store, forms: seq<MetricForm>, env: Env): (o: Outcome)
    ensures o.Rejected? <==> exists i :: 0 <= i < |forms| && forms[i].sessionId !in st.sessions
    ensures o.Rejected? ==>
      && o.code == NOT_FOUND
      && o.failure.SessionsNotFound?
      && o.failure.ids == Unknown(st, MetricKeys(forms))
    ensures o.Accepted? ==>
      && o.code == CREATED
      && o.body == CreatedCount(|forms|)
      && OnlyMetricsChanged(st, o.store)
      && AppendedAll(st.metrics, o.store.metrics, MetricDrafts(forms, env))
    ensures Valid(st) ==> Valid(After(st, o))
  {
    var missing := Unknown(st, MetricKeys(forms));
    if missing != {} then Rejected(NOT_FOUND, SessionsNotFound(missing))
    else
      var drafts := MetricDrafts(forms, env);
      assert forall i :: 0 <= i < |drafts| ==> st.FoundByOrm(drafts[i].sessionId);
      AddMetricsValid(st, drafts);
      Accepted(CREATED, st.AddMetrics(drafts), CreatedCount(|forms|))
  }

  function CreateMetricsBatch(st: Store, req: Batch<MetricRequest>, env: Env): (o: Outcome)
    ensures !req.Items? ==> o == Rejected(UNPROCESSABLE, Invalid)
    ensures req.Items? && ParseMetrics(req.items, env).Fail? ==> o == Rejected(UNPROCESSABLE, Invalid)
    ensures req.Items? && ParseMetrics(req.items, env).Pass? ==> o == AddMetrics(st, ParseMetrics(req.items, env).value, env)
    ensures o.Accepted? <==>
      && req.Items?
      && forall i :: 0 <= i < |req.items| ==> ParseMetric(req.items[i], env).Pass? && req.items[i].sessionId.key in st.sessions
    ensures o.Accepted? ==> o.body == CreatedCount(|req.items|) && |o.store.metrics.rows| == |st.metrics.rows| + |req.items|
    ensures Valid(st) ==> Valid(After(st, o))
  {
    match req
    case Items(items) =>
      (match ParseMetrics(items, env)
       case Fail => Rejected(UNPROCESSABLE, Invalid)
       case Pass(forms) => AddMetrics(st, forms, env))
    case _ => Rejected(UNPROCESSABLE, Invalid)
  }
}

=== FILE: wrappers.dfy ===
/** Optional values (Python's None) and generic sequence helpers shared by the three variants. */
module Wrappers {

  datatype Option<+T> = None | Some(value: T) {

    /** The value, or `default` when there is none. */
    function GetOr(default: T): T {
      match this
      case Some(v) => v
      case None => default
    }
  }

  /** Which behaviour a handler follows: the source as written, or with the
      defects recorded as findings corrected. */
  datatype Version = AsWritten | Corrected

  /** The result of a validation step that either yields a value or refuses the input. */
  datatype Validated<+T> = Pass(value: T) | Fail {

    predicate IsFailure() {
      Fail?
    }

    function PropagateFailure<U>(): Validated<U>
      requires Fail?
    {
      Fail
    }

    function Extract(): T
      requires Pass?
    {
      value
    }

    function ToOption(): Option<T> {
      match this
      case Pass(v) => Some(v)
      case Fail => None
    }
  }

  /** The image of every item, in order (a list comprehension). */
  function MapSeq<T, D>(items: seq<T>, f: T -> D): (r: seq<D>)
    ensures |r| == |items|
    ensures forall i :: 0 <= i < |items| ==> r[i] == f(items[i])
  {
    seq(|items|, i requires 0 <= i < |items| => f(items[i]))
  }

  /** Keeps, in order, the images of the items `f` accepts and drops the others
      (a loop that `continue`s past the items it cannot use). */
  function FilterMap<T, D>(items: seq<T>, f: T -> Option<D>): (kept: seq<D>)
    ensures |kept| <= |items|
    ensures |kept| == |items| <==> forall i :: 0 <= i < |items| ==> f(items[i]).Some?
    ensures forall j :: 0 <= j < |kept| ==> exists i :: 0 <= i < |items| && f(items[i]) == Some(kept[j])
    ensures forall i :: 0 <= i < |items| && f(items[i]).Some? ==> f(items[i]).value in kept
  {
    if items == [] then []
    else
      var rest := FilterMap(items[1..], f);
      assert forall i :: 1 <= i < |items| ==> items[1..][i - 1] == items[i];
      assert forall j :: 0 <= j < |rest| ==> exists i :: 0 <= i < |items| && f(items[i]) == Some(rest[j]) by {
        forall j | 0 <= j < |rest|
          ensures exists i :: 0 <= i < |items| && f(items[i]) == Some(rest[j])
        {
          var i :| 0 <= i < |items[1..]| && f(items[1..][i]) == Some(rest[j]);
          assert f(items[i + 1]) == Some(rest[j]);
        }
      }
      match f(items[0])
      case Some(d) => [d] + rest
      case None => rest
  }

  /** Filtering a concatenation filters each part in turn: items are kept in
      their order, and whether one is kept depends on that item alone. */
  lemma {:induction false} FilterMapAppend<T, D>(a: seq<T>, b: seq<T>, f: T -> Option<D>)
    ensures FilterMap(a + b, f) == FilterMap(a, f) + FilterMap(b, f)
    decreases |a|
  {
    if a == [] {
      assert a + b == b;
    } else {
      assert (a + b)[0] == a[0];
      assert (a + b)[1..] == a[1..] + b;
      FilterMapAppend(a[1..], b, f);
    }
  }

  /** One more step of the loop: the next item's image is appended when `f`
      accepts it, and nothing is appended otherwise. */
  lemma FilterMapSnoc<T, D>(items: seq<T>, x: T, f: T -> Option<D>)
    ensures FilterMap(items + [x], f) == FilterMap(items, f) + (if f(x).Some? then [f(x).value] else [])
  {
    FilterMapAppend(items, [x], f);
    assert [x][1..] == [];
  }

  /** Whatever holds of every image `f` produces holds of every kept value. */
  lemma {:induction false} FilterMapKeeps<T, D>(items: seq<T>, f: T -> Option<D>, p: D -> bool)
    requires forall i :: 0 <= i < |items| && f(items[i]).Some? ==> p(f(items[i]).value)
    ensures forall j :: 0 <= j < |FilterMap(items, f)| ==> p(FilterMap(items, f)[j])
    decreases |items|
  {
    if items != [] {
      assert forall i :: 0 <= i < |items[1..]| ==> items[1..][i] == items[i + 1];
      FilterMapKeeps(items[1..], f, p);
    }
  }

  /** The images of all items, or nothing as soon as one item is refused
      (a loop whose first refusal abandons the whole batch). */
  function MapAll<T, D>(items: seq<T>, f: T -> Option<D>): (r: Option<seq<D>>)
    ensures r.Some? <==> forall i :: 0 <= i < |items| ==> f(items[i]).Some?
    ensures r.Some? ==> |r.value| == |items|
    ensures r.Some? ==> forall i :: 0 <= i < |items| ==> f(items[i]) == Some(r.value[i])
  {
    if items == [] then Some([])
    else
      match f(items[0])
      case None => None
      case Some(d) =>
        match MapAll(items[1..], f)
        case None => None
        case Some(ds) => Some([d] + ds)
  }
}
